=== FILE: README.md ===
# Job postings: form checks and table gateway

This project models the job-postings workflow of an HR panel. It has two parts.

- **The job form** (`JobForm.tsx`):
  - the blank form, and loading a job for editing;
  - the change handlers;
  - the qualifications widget, which stores the selection as one newline-joined text and shows it split, trimmed and without blank lines;
  - the submit procedure.

  Submitting either blocks a draft with exactly one reason, or formats it and hands it to the create or update callback.
- **The table gateway** (`supabaseJobs.ts`):
  - the renaming between the camelCase job record and the snake_case `jobs` row, in both directions;
  - the normalisation of skills and the default status;
  - the truthy-only update patch;
  - the four operations: list, create, update and delete.

The hosted table is a sequence of rows. Three things the hosted service decides are parameters of each operation:

- how it answers: a body, an error message, or neither;
- the identifier it assigns to a new row;
- the timestamp it assigns to a new row.

Modules, one per file:

- `Wrappers`: `Option`, `Result` and `Outcome`.
- `Js`: the JavaScript semantics the code relies on:
  - truthiness;
  - `Number(text)` on a number input;
  - `includes`, `trim`, `split` and `join`.
- `Seqs`: order-preserving selection.
- `Types`: the job record of `types.ts`. A `Field` enumeration names its properties, and `Get` reads a property as a JavaScript value.
- `JobForm`: the form.
- `SupabaseJobs`: the gateway.
- `Workflow`: the jobs page passing the form's record to the gateway.

Conventions:

- JavaScript numbers are integers.
- Dates are opaque strings. Comparing two dates goes through a parameter `instant: string -> int`.
- `created_at` is an integer timestamp.
- `null` and `undefined` are `Undefined`, or `None` for an optional property.

Behaviours worth noting:

- Validation stops at the first failing category. Only missing required fields are collected into one list.
- The date check rejects only a start date strictly after the end date. Equal dates pass.
- Deleting an identifier that no row holds succeeds. It does not fail.
- `updateJob`, given a job read from a row whose skills cell is null and with only its title changed, also writes an empty skills array (`SupabaseJobs.NullSkillsTitleEdit`). The form never sends such a job, because it refuses an empty skills list (`Workflow.NullSkillsTitleEditIsBlocked`).
- The update patch writes only truthy properties, not every property present. So an edit cannot clear an optional property such as the end date or the preferences (`Workflow.UpdatedFromForm`, `Workflow.ClearedEndDateIsKept`).

## Model

| member | source | states |
|---|---|---|
| `JobForm.Blank` | Frontend/my-app/src/components/JobForm.tsx:36-54 | In the initial and reset form, every property other than skills and status is falsy. Skills are an empty list and status is "Active". |
| `JobForm.Load` | Frontend/my-app/src/components/JobForm.tsx:57-83 | With no job being edited the form is blank. Otherwise every property equals the edited job's, and its identifier and creation time are dropped. |
| `JobForm.SalaryKeys` | Frontend/my-app/src/components/JobForm.tsx:90 | Exactly the two salary properties have a name that includes "salary". |
| `JobForm.HandleChange` | Frontend/my-app/src/components/JobForm.tsx:86-92 | A salary input stores `Number(value)` and any other input stores the raw text. No other property changes. |
| `Js.ToNumberReadsDecimalText` | Frontend/my-app/src/components/JobForm.tsx:86-92 | `Number` reads back every integer the salary inputs display (`value={form.salaryFrom}`, line 297), so a salary shown in the form is stored again unchanged. |
| `JobForm.HandleSelectChange` | Frontend/my-app/src/components/JobForm.tsx:95-97 | A cleared select stores "" and a chosen one stores its value. No other property changes. |
| `JobForm.HandleSkillsChange` | Frontend/my-app/src/components/JobForm.tsx:100-105 | Skills become the selected values, in order, or no skills when the selection is null. No other property changes. |
| `JobForm.HandleQualificationsChange` | Frontend/my-app/src/components/JobForm.tsx:397-402 | Qualifications become the selected values joined with newlines. No other property changes. |
| `JobForm.ShownQualifications` | Frontend/my-app/src/components/JobForm.tsx:408-413 | Every shown qualification is non-blank, trimmed and on one line. The shown items are the trims of the stored lines, taken in line order. Every line that is not blank is shown, once per occurrence: counted with repetition, the shown items are exactly the non-blank trimmed lines. |
| `JobForm.VisibleCounts` | Frontend/my-app/src/components/JobForm.tsx:408-413 | Counted with repetition, the pieces kept after trimming and dropping the blank ones are the trimmed pieces without the empty ones. |
| `JobForm.QualificationsRoundTrip` | Frontend/my-app/src/components/JobForm.tsx:397-413 | Storing a selection of clean values and showing it gives back exactly that selection, in order. |
| `JobForm.ShownQualificationsStable` | Frontend/my-app/src/components/JobForm.tsx:397-413 | Selecting what the widget shows stores a text that shows the same list. |
| `JobForm.Unfilled` | Frontend/my-app/src/components/JobForm.tsx:130-132 | The missing properties keep their declared order, and a property is listed iff it is required and falsy. |
| `JobForm.FalsyRequiredIsListed` | Frontend/my-app/src/components/JobForm.tsx:115-132 | Every falsy required property has its label in the missing list. |
| `JobForm.ZeroSalaryIsMissing` | Frontend/my-app/src/components/JobForm.tsx:121-132 | A minimum salary of 0 is reported as missing. |
| `JobForm.EmptySkillsAreNotMissing` | Frontend/my-app/src/components/JobForm.tsx:127-132 | An empty skills list is never reported as missing, because an array is truthy. |
| `JobForm.Validate` | Frontend/my-app/src/components/JobForm.tsx:134-155 | The outcome for each category, as an iff condition. Missing fields block iff a required property is falsy, and the reason lists exactly the missing labels. A salary range blocks iff all are filled and minimum > maximum. Reversed dates block iff, beyond that, both dates are set and the start is later. No skills block iff, beyond that, the list is empty. Otherwise the draft passes. |
| `JobForm.EmptySkillsAreRejected` | Frontend/my-app/src/components/JobForm.tsx:152-155 | A draft without skills never passes. |
| `JobForm.MissingAlertLines` | Frontend/my-app/src/components/JobForm.tsx:134-136 | When some required property is falsy, the alert text after its heading line splits back into exactly the missing labels, one per line. |
| `JobForm.AlertText` | Frontend/my-app/src/components/JobForm.tsx:134-154 | The text of each blocking alert. An alert opens with the missing-fields heading exactly when it reports missing fields. |
| `JobForm.Format` | Frontend/my-app/src/components/JobForm.tsx:158-165 | The submitted record has status "Active". It keeps a truthy end date, drops an empty one, and keeps every other property. |
| `JobForm.Submit` | Frontend/my-app/src/components/JobForm.tsx:107-178 | A blocked draft raises the validation reason, and the form and editing state stay as they were. An accepted draft is formatted. With no job being edited it goes to the create callback. Otherwise the edited job, overlaid with it, goes to the update callback, keeping the job's identifier and creation time. Then the form is reset and the editing state cleared. |
| `JobForm.SavedEditThenCreates` | Frontend/my-app/src/components/JobForm.tsx:166-178 | After a saved edit the editing state is cleared, so the next accepted submission calls the create callback with its formatted draft. |
| `JobForm.MissingFieldBlocksSubmit` | Frontend/my-app/src/components/JobForm.tsx:130-137 | With a falsy required property, neither callback is called, and the alert lists that property's label. |
| `JobForm.EqualSalariesPassRange` | Frontend/my-app/src/components/JobForm.tsx:140-143 | Equal salary bounds never fail the range check. |
| `JobForm.NoEndDateSkipsDateCheck` | Frontend/my-app/src/components/JobForm.tsx:146-149 | An absent or empty end date never fails the date check. |
| `SupabaseJobs.ColumnNamesDistinct` | Frontend/my-app/src/lib/supabaseJobs.ts:50-68 | Distinct properties are stored under distinct columns, and no property is stored under `id` or `created_at`. |
| `SupabaseJobs.ToColumns` | Frontend/my-app/src/lib/supabaseJobs.ts:50-68 | The written row holds every property under its column and always holds a skills array. An empty status is written as "Active" and a non-empty one as given. |
| `SupabaseJobs.ReadRow` | Frontend/my-app/src/lib/supabaseJobs.ts:21-41 | The read record holds every cell under its camelCase name, with the row's identifier and timestamp. A skills cell that is not an array reads as no skills. |
| `SupabaseJobs.ReadUpdated` | Frontend/my-app/src/lib/supabaseJobs.ts:155-175 | The update response passes the skills cell through as stored. Otherwise it agrees with the normalising reader. |
| `SupabaseJobs.RecordRoundTrip` | Frontend/my-app/src/lib/supabaseJobs.ts:50-116 | Writing a record and reading it back gives the same record, with the store's identifier and timestamp and with "Active" for an empty status. |
| `SupabaseJobs.RowRoundTrip` | Frontend/my-app/src/lib/supabaseJobs.ts:96-116 | Reading a row and writing it back gives the same cells, when skills are an array and the status is set. |
| `SupabaseJobs.BuildPatch` | Frontend/my-app/src/lib/supabaseJobs.ts:126-143 | The patch names a property's column iff the property is truthy, and maps it to that property's value. It holds only column names and never `id` or `created_at`. |
| `SupabaseJobs.ApplyPatch` | Frontend/my-app/src/lib/supabaseJobs.ts:145-148 | A cell named in the patch takes the patch's value, and every other cell is unchanged. |
| `SupabaseJobs.PatchWritesTruthyOnly` | Frontend/my-app/src/lib/supabaseJobs.ts:126-148 | Updating with a record's patch sets exactly the record's truthy properties and leaves every other cell as it was. |
| `SupabaseJobs.OrderNewestFirst` | Frontend/my-app/src/lib/supabaseJobs.ts:8-11 | The listed rows are a rearrangement of the table, ordered by `created_at` descending. |
| `SupabaseJobs.FetchJobs` | Frontend/my-app/src/lib/supabaseJobs.ts:7-42 | A store error is rethrown and a missing body lists nothing. Otherwise the result lists one record per row, newest first: every row is listed and nothing else is, and each record appears as often as its row occurs in the table. |
| `SupabaseJobs.CreateJob` | Frontend/my-app/src/lib/supabaseJobs.ts:45-121 | A store error fails with "Failed to create job: " and the store's message, and writes nothing. Otherwise the row is appended. A missing body then fails with "No data returned from Supabase". A body returns the record with the assigned identifier and timestamp and a non-empty status. |
| `SupabaseJobs.Locate` | Frontend/my-app/src/lib/supabaseJobs.ts:148-150 | It finds a position only when exactly one row holds the identifier. None means no row holds it or two rows do. |
| `SupabaseJobs.UpdateJob` | Frontend/my-app/src/lib/supabaseJobs.ts:124-176 | A store error, or an identifier not held by exactly one row, fails and writes nothing. Otherwise that one row takes the input's truthy properties, and its identifier, creation time, other cells and every other row are unchanged. A missing body then fails on reading the null response. |
| `SupabaseJobs.DeleteJob` | Frontend/my-app/src/lib/supabaseJobs.ts:179-186 | A store error is rethrown and nothing is removed. Otherwise exactly the rows holding the identifier are removed, every other row keeps its order and its number of occurrences, and a missing identifier is not an error. |
| `SupabaseJobs.CreatedJobIsListed` | Frontend/my-app/src/lib/supabaseJobs.ts:72-116 | A created job is among the jobs listed afterwards. |
| `SupabaseJobs.DeletedJobIsNotListed` | Frontend/my-app/src/lib/supabaseJobs.ts:179-186 | After a delete, no listed job holds the deleted identifier. |
| `SupabaseJobs.LocateUnique` | Frontend/my-app/src/lib/supabaseJobs.ts:145-150 | When identifiers are unique, an update locates its row iff some row holds the identifier. |
| `SupabaseJobs.CreateKeepsIdsUnique` | Frontend/my-app/src/lib/types.ts:4 | Creating under a fresh identifier keeps identifiers unique. |
| `SupabaseJobs.UpdateKeepsIdsUnique` | Frontend/my-app/src/lib/supabaseJobs.ts:145-150 | An update keeps identifiers unique. |
| `SupabaseJobs.RemoveKeepsIdsUnique` | Frontend/my-app/src/lib/supabaseJobs.ts:180-183 | Removing rows keeps identifiers unique. |
| `SupabaseJobs.DeleteKeepsIdsUnique` | Frontend/my-app/src/lib/supabaseJobs.ts:179-186 | A delete keeps identifiers unique. |
| `SupabaseJobs.UpdateOfMissingIdFails` | Frontend/my-app/src/lib/supabaseJobs.ts:145-152 | An update of an identifier no row holds fails and leaves the table as it was. |
| `SupabaseJobs.UpdateOfStoredRow` | Frontend/my-app/src/lib/supabaseJobs.ts:145-150 | With unique identifiers, an update of a stored row's identifier patches that row and leaves every other row as it was. |
| `SupabaseJobs.TitleOnlyEdit` | Frontend/my-app/src/lib/supabaseJobs.ts:126-150 | For a stored row whose skills cell is an array, sending back the job with only its title changed rewrites the title (when non-empty) and nothing else. |
| `SupabaseJobs.EmptySkillsTitlePatch` | Frontend/my-app/src/lib/supabaseJobs.ts:126-143 | A record with no skills that agrees with a row on every other property but the title patches the title (when non-empty) and writes an empty skills array, because `[]` is truthy. |
| `SupabaseJobs.NullSkillsTitleEdit` | Frontend/my-app/src/lib/supabaseJobs.ts:124-150 | For a stored row whose skills cell is null, sending back the job with only its title changed also writes `skills: []`. The read turned the null cell into `[]` (line 34), and the truthy test at line 138 lets it through. |
| `Workflow.NullSkillsTitleEditIsBlocked` | Frontend/my-app/src/components/JobForm.tsx:152-155 | A job read from a row whose skills cell is null, loaded into the form and sent with only its title changed, is refused with an alert and never reaches `updateJob`: the read gave it no skills. |
| `Workflow.FormatKeepsTruthy` | Frontend/my-app/src/components/JobForm.tsx:158-165 | Formatting keeps the truthy properties other than status and makes no falsy one truthy. |
| `Workflow.CreatedFromForm` | Frontend/my-app/src/components/JobForm.tsx:158-172 | An accepted new draft is stored and returned active, with the assigned identifier and timestamp. Every other property is as entered, a truthy end date included. With no end date entered, none is stored. |
| `Workflow.UpdatedFromForm` | Frontend/my-app/src/components/JobForm.tsx:168-169 | Saving an edit writes the draft's truthy properties and "Active" status into the edited row. Properties left empty keep their stored values, and other rows are unchanged. |
| `Workflow.ClearedEndDateIsKept` | Frontend/my-app/src/lib/supabaseJobs.ts:140 | Clearing the end date of a job being edited leaves the stored end date in place. |
| `Workflow.BackendEngineerIsValid` | Frontend/my-app/src/components/JobForm.tsx:115-155 | The example posting passes every submission check, whatever the date reading. |
| `Workflow.BackendEngineerIsCreated` | Frontend/my-app/src/components/JobForm.tsx:107-172 | Submitting the example posting (a full-time remote backend role) creates it. The result is active, carries the assigned identifier and timestamp, and is listed. |

## Left out

- The browser's own form validation: the inputs' `required` and `min="0"` attributes make the browser refuse a submission before the handler runs. `Submit` models `handleSubmit` alone.
- Rendering, React state hooks, `async`/`await`, `alert` and `console` output. Alerts and callback calls are outcomes: `Submit` returns the action, the form's next state, and the jobs page's editing state as `onClear` leaves it.
- The form's `catch` branch (`JobForm.tsx:180-187`): the jobs page's callbacks catch their own errors, so it is not reached from that page, except through an unparsable date, whose parsing is left out (`new Date(..).toISOString()` at `JobForm.tsx:162-163` throws a `RangeError` on one).
- The jobs page's list refresh, loading flag and success alerts (`page.tsx`). `Workflow` only follows the record from the form into the gateway.
- Parsing dates and `toISOString`. The date pickers store their date's ISO text or "". In the model that is `HandleSelectChange` on the date property, with the ISO rendering left out. `Format` keeps dates as they are.
- Js.ToNumber: fractions, exponents and surrounding white space are not modelled. Text that JavaScript turns into `NaN` reads as 0 here; both are falsy, so for such text the validation outcome is the same. Fractions and exponents also read as 0, so "2.5" or "1e5" is reported as a missing salary, where JavaScript stores a truthy number.
- SupabaseJobs.UpdateJob: takes the whole record, as the jobs page passes it, rather than an arbitrary `Partial<Job>`. A property missing from a partial record reads like a falsy one and is left out of the patch in the same way. The record's `id` and `created_at` never enter the patch, so only its properties are passed.
- SupabaseJobs.ApplyPatch: the store's type checks on column values are not modelled. A value that does not fit its column is ignored, and `BuildPatch` never produces one.
- SupabaseJobs.OrderNewestFirst: rows with equal `created_at` come in an order the store leaves open. The model picks one.
- The Supabase client, its configuration and `checkAuth` (`supabase.ts`); the identifier and timestamp the store assigns are parameters instead.
- The table, sidebar, navigation bar, dashboard and layout components, the login page, and the FastAPI backend: presentation, navigation, network handlers and password hashing, with no job-posting logic.

=== FILE: job_form.dfy ===
/** The job form: its blank and loaded states, the change handlers that edit
    a draft, the qualifications widget, and the submit procedure that either
    blocks a draft with one reason or hands a formatted record to the
    create or update callback. Alerts, rendering and the callbacks' effects
    are outcomes here: `Submit` returns the action the form takes. */
module JobForm {
  import opened Wrappers
  import opened Js
  import opened Seqs
  import opened Types

  // ---------------------------------------------------------------------
  // Form state

  /** The blank form: the initial state, the state with no job being edited,
      and the state after a reset. */
  function Blank(): (d: Draft)
    ensures forall f :: f != Skills && f != Status ==> !Truthy(Get(d, f))
    ensures d.skills == [] && d.status == "Active"
  {
    Posting("", "", "", "", "", 0, 0, "", "", "", "", [], "", Some(""), "", Some(""), "Active")
  }

  /** The state the form takes when the job being edited changes: the job's
      fields without its identifier and creation time, or the blank form. */
  function Load(editing: Option<Job>): (d: Draft)
    ensures editing.None? ==> d == Blank()
    ensures editing.Some? ==> forall f :: Get(d, f) == Get(editing.value.posting, f)
  {
    match editing
    case None => Blank()
    case Some(job) => job.posting
  }

  // ---------------------------------------------------------------------
  // Change handlers

  /** Only the two salary properties have "salary" in their name. */
  lemma SalaryKeys(f: Field)
    ensures Includes(Key(f), "salary") <==> f == SalaryFrom || f == SalaryTo
  {
    if f == SalaryFrom || f == SalaryTo {
      PrefixIsIncluded(Key(f), "salary");
    } else {
      OtherKeysLackSalary(f);
    }
  }

  /** No other property's name includes "salary": each lacks one of its
      letters. */
  lemma OtherKeysLackSalary(f: Field)
    requires f != SalaryFrom && f != SalaryTo
    ensures !Includes(Key(f), "salary")
  {
    match f
    case JobType => LackingCharExcludes("jobType", "salary", 's');
    case Urgency => LackingCharExcludes("urgency", "salary", 's');
    case Title | Description | Department | Qualifications | Experience | Schedule | Location =>
      FormKeysLackSalary(f);
    case _ => RemainingKeysLackSalary(f);
  }

  /** The keys of the posting's descriptive properties have no 'y', which
      "salary" has. */
  lemma FormKeysLackSalary(f: Field)
    requires f in {Title, Description, Department, Qualifications, Experience, Schedule, Location}
    ensures !Includes(Key(f), "salary")
  {
    match f
    case Title => LackingCharExcludes("title", "salary", 'y');
    case Description => LackingCharExcludes("description", "salary", 'y');
    case Department => LackingCharExcludes("department", "salary", 'y');
    case Qualifications => LackingCharExcludes("qualifications", "salary", 'y');
    case Experience => LackingCharExcludes("experience", "salary", 'y');
    case Schedule => LackingCharExcludes("schedule", "salary", 'y');
    case Location => LackingCharExcludes("location", "salary", 'y');
  }

  /** The keys of the remaining non-salary properties have no 'y' either. */
  lemma RemainingKeysLackSalary(f: Field)
    requires f in {ReportingManager, Skills, StartDate, EndDate, Preferences, Status}
    ensures !Includes(Key(f), "salary")
  {
    match f
    case ReportingManager => LackingCharExcludes("reportingManager", "salary", 'y');
    case Skills => LackingCharExcludes("skills", "salary", 'y');
    case StartDate => LackingCharExcludes("startDate", "salary", 'y');
    case EndDate => LackingCharExcludes("endDate", "salary", 'y');
    case Preferences => LackingCharExcludes("preferences", "salary", 'y');
    case Status => LackingCharExcludes("status", "salary", 'y');
  }

  /** A text input or select changed: a property whose name includes
      "salary" stores `Number(value)`, any other stores the raw text, and
      nothing else changes. */
  function HandleChange(d: Draft, f: Field, value: string): (r: Draft)
    requires f != Skills
    ensures (f == SalaryFrom || f == SalaryTo) ==> Get(r, f) == Number(ToNumber(value))
    ensures IsTextField(f) ==> Get(r, f) == Text(value)
    ensures forall g :: g != f ==> Get(r, g) == Get(d, g)
  {
    SalaryKeys(f);
    if Includes(Key(f), "salary") then WithNumber(d, f, ToNumber(value)) else WithText(d, f, value)
  }

  /** A single-value select changed: a cleared select (null) stores "". */
  function HandleSelectChange(d: Draft, f: Field, value: Option<string>): (r: Draft)
    requires IsTextField(f)
    ensures value.None? ==> Get(r, f) == Text("")
    ensures value.Some? ==> Get(r, f) == Text(value.value)
    ensures forall g :: g != f ==> Get(r, g) == Get(d, g)
  {
    WithText(d, f, value.GetOr(""))
  }

  /** An option of a select widget. */
  datatype Choice = Choice(value: string, caption: string)

  function Values(choices: seq<Choice>): (r: seq<string>)
    ensures |r| == |choices|
    ensures forall i :: 0 <= i < |r| ==> r[i] == choices[i].value
  {
    seq(|choices|, i requires 0 <= i < |choices| => choices[i].value)
  }

  /** The skills multi-select changed: the selected values in order, or no
      skills when the selection is null. */
  function HandleSkillsChange(d: Draft, selected: Option<seq<Choice>>): (r: Draft)
    ensures selected.None? ==> r.skills == []
    ensures selected.Some? ==>
      (|r.skills| == |selected.value|
       && forall i :: 0 <= i < |r.skills| ==> r.skills[i] == selected.value[i].value)
    ensures forall g :: g != Skills ==> Get(r, g) == Get(d, g)
  {
    d.(skills := match selected case None => [] case Some(cs) => Values(cs))
  }

  // ---------------------------------------------------------------------
  // Qualifications: stored as one newline-separated string, shown as a list

  /** The qualifications multi-select changed: the selected values joined
      with newlines. */
  function HandleQualificationsChange(d: Draft, selected: Option<seq<Choice>>): (r: Draft)
    ensures r.qualifications == Join(match selected case None => [] case Some(cs) => Values(cs), '\n')
    ensures forall g :: g != Qualifications ==> Get(r, g) == Get(d, g)
  {
    d.(qualifications := Join(match selected case None => [] case Some(cs) => Values(cs), '\n'))
  }

  /** A qualification as the widget shows it: non-blank, trimmed, one line. */
  predicate Clean(q: string) {
    Trimmed(q) && '\n' !in q
  }

  /** A piece as the widget shows it: non-blank, and neither starting nor
      ending with white space, so that it is its own trim. */
  predicate Trimmed(q: string) {
    q != "" && !IsSpace(q[0]) && !IsSpace(q[|q| - 1])
  }

  /** The trimmed non-blank pieces, in order. */
  function Visible(pieces: seq<string>): (r: seq<string>)
    ensures |r| <= |pieces|
    ensures forall i :: 0 <= i < |r| ==> Trimmed(r[i])
  {
    if pieces == [] then []
    else
      var rest := Visible(pieces[1..]);
      var t := Trim(pieces[0]);
      if t == [] then rest
      else
        PrependTrimmed(t, rest);
        [t] + rest
  }

  /** Putting a trimmed piece in front of trimmed pieces keeps them all trimmed. */
  lemma PrependTrimmed(t: string, rest: seq<string>)
    requires Trimmed(t)
    requires forall i :: 0 <= i < |rest| ==> Trimmed(rest[i])
    ensures forall i :: 0 <= i < |[t] + rest| ==> Trimmed(([t] + rest)[i])
  {
    assert forall i :: 0 < i <= |rest| ==> ([t] + rest)[i] == rest[i - 1];
  }

  /** Trimming single-line pieces gives single-line pieces. */
  lemma {:induction false} VisibleSingleLine(pieces: seq<string>)
    requires forall i :: 0 <= i < |pieces| ==> '\n' !in pieces[i]
    ensures forall i :: 0 <= i < |Visible(pieces)| ==> '\n' !in Visible(pieces)[i]
    decreases |pieces|
  {
    if pieces != [] {
      assert forall i :: 0 <= i < |pieces[1..]| ==> pieces[1..][i] == pieces[i + 1];
      VisibleSingleLine(pieces[1..]);
      assert '\n' !in Trim(pieces[0]);
    }
  }

  /** Each piece trimmed, in order. */
  function Trims(pieces: seq<string>): (r: seq<string>)
    ensures |r| == |pieces|
    ensures forall i :: 0 <= i < |r| ==> r[i] == Trim(pieces[i])
  {
    seq(|pieces|, i requires 0 <= i < |pieces| => Trim(pieces[i]))
  }

  /** The shown pieces are taken, in order, from the trimmed pieces. */
  lemma {:induction false} VisibleTakesTrims(pieces: seq<string>)
    ensures IsSubsequence(Visible(pieces), Trims(pieces))
    decreases |pieces|
  {
    if pieces != [] {
      VisibleTakesTrims(pieces[1..]);
      assert Trims(pieces)[1..] == Trims(pieces[1..]);
      var rest := Visible(pieces[1..]);
      if Trim(pieces[0]) != [] {
        assert ([Trim(pieces[0])] + rest)[1..] == rest;
      }
    }
  }

  /** Every piece that does not trim to nothing is shown, trimmed. */
  lemma {:induction false} VisibleHasEveryLine(pieces: seq<string>)
    ensures forall p :: p in pieces && Trim(p) != [] ==> Trim(p) in Visible(pieces)
    decreases |pieces|
  {
    if pieces != [] {
      VisibleHasEveryLine(pieces[1..]);
      forall p | p in pieces && Trim(p) != []
        ensures Trim(p) in Visible(pieces)
      {
        if p != pieces[0] {
          assert p in pieces[1..];
        }
      }
    }
  }

  /** Dropping every copy of `z` from a multiset with one more element:
      the added element vanishes when it is `z` and stays otherwise. */
  lemma DropAfterAdd(m: multiset<string>, x: string, z: string)
    ensures x == z ==> (multiset{x} + m)[z := 0] == m[z := 0]
    ensures x != z ==> (multiset{x} + m)[z := 0] == multiset{x} + m[z := 0]
  {
  }

  /** Trimming pieces one by one: the first trimmed piece, then the rest. */
  lemma TrimsCons(pieces: seq<string>)
    requires pieces != []
    ensures Trims(pieces) == [Trim(pieces[0])] + Trims(pieces[1..])
  {
    assert forall i :: 0 < i < |pieces| ==> Trims(pieces)[i] == Trims(pieces[1..])[i - 1];
  }

  /** One step of counting the shown pieces: an empty trimmed piece adds
      nothing to the shown ones, a non-empty one adds itself. */
  lemma CountsStep(t: string, shown: seq<string>, trimmed: seq<string>,
                   allShown: seq<string>, allTrimmed: seq<string>)
    requires multiset(shown) == multiset(trimmed)[[] := 0]
    requires allTrimmed == [t] + trimmed
    requires allShown == if t == [] then shown else [t] + shown
    ensures multiset(allShown) == multiset(allTrimmed)[[] := 0]
  {
    assert multiset(allTrimmed) == multiset{t} + multiset(trimmed);
    assert multiset([t] + shown) == multiset{t} + multiset(shown);
    DropAfterAdd(multiset(trimmed), t, []);
  }

  /** Each piece that does not trim to nothing is shown once per
      occurrence: the shown pieces are the trimmed pieces, counted with
      repetition, without the empty ones. */
  lemma {:induction false} VisibleCounts(pieces: seq<string>)
    ensures multiset(Visible(pieces)) == multiset(Trims(pieces))[[] := 0]
    decreases |pieces|
  {
    if pieces != [] {
      VisibleCounts(pieces[1..]);
      TrimsCons(pieces);
      CountsStep(Trim(pieces[0]), Visible(pieces[1..]), Trims(pieces[1..]),
                 Visible(pieces), Trims(pieces));
    }
  }

  /** The list the qualifications widget displays for the stored text: its
      lines, trimmed, with blank ones dropped. Every shown item is clean and
      is the trim of a line, the items keep the order of their lines, and
      every line that is not blank is shown. */
  function ShownQualifications(text: string): (r: seq<string>)
    ensures forall i :: 0 <= i < |r| ==> Clean(r[i])
    ensures IsSubsequence(r, Trims(Split(text, '\n')))
    ensures forall q :: q in r ==> q in Trims(Split(text, '\n'))
    ensures forall p :: p in Split(text, '\n') && Trim(p) != [] ==> Trim(p) in r
    ensures multiset(r) == multiset(Trims(Split(text, '\n')))[[] := 0]
  {
    var lines := Split(text, '\n');
    VisibleSingleLine(lines);
    VisibleTakesTrims(lines);
    VisibleHasEveryLine(lines);
    VisibleCounts(lines);
    forall q | q in Visible(lines)
      ensures q in Trims(lines)
    {
      SubsequenceMembers(Visible(lines), Trims(lines), q);
    }
    Visible(lines)
  }

  /** Clean pieces are shown as they are. */
  lemma {:induction false} VisibleKeepsClean(pieces: seq<string>)
    requires forall i :: 0 <= i < |pieces| ==> Clean(pieces[i])
    ensures Visible(pieces) == pieces
    decreases |pieces|
  {
    if pieces != [] {
      VisibleKeepsClean(pieces[1..]);
      assert [pieces[0]] + pieces[1..] == pieces;
    }
  }

  /** Selecting clean qualifications and displaying the stored text shows
      exactly the selection, in order; an empty selection shows nothing. */
  lemma QualificationsRoundTrip(values: seq<string>)
    requires forall i :: 0 <= i < |values| ==> Clean(values[i])
    ensures ShownQualifications(Join(values, '\n')) == values
  {
    if values == [] {
      assert Split([], '\n') == [[]];
      assert Visible([[]]) == Visible([]);
    } else {
      SplitJoin(values, '\n');
      VisibleKeepsClean(values);
    }
  }

  /** Re-selecting what the widget shows stores a text that shows the same. */
  lemma ShownQualificationsStable(text: string)
    ensures ShownQualifications(Join(ShownQualifications(text), '\n')) == ShownQualifications(text)
  {
    QualificationsRoundTrip(ShownQualifications(text));
  }

  // ---------------------------------------------------------------------
  // Submission checks

  /** The label the missing-fields alert uses for a required property.
      Properties outside the required list have no label of their own; their
      key stands in. */
  function Label(f: Field): string {
    match f
    case Title => "Job Title"
    case Department => "Department"
    case JobType => "Job Type"
    case Location => "Location"
    case Experience => "Experience"
    case SalaryFrom => "Minimum Salary"
    case SalaryTo => "Maximum Salary"
    case StartDate => "Start Date"
    case Urgency => "Urgency"
    case Description => "Job Description"
    case Qualifications => "Qualifications"
    case Skills => "Required Skills"
    case _ => Key(f)
  }

  /** The required properties, in the order the alert lists them. */
  const RequiredFields: seq<Field> := [
    Title, Department, JobType, Location, Experience, SalaryFrom, SalaryTo,
    StartDate, Urgency, Description, Qualifications, Skills]

  /** The properties among `fs` that are falsy, in their given order. */
  function Unfilled(d: Draft, fs: seq<Field>): (r: seq<Field>)
    ensures IsSubsequence(r, fs)
    ensures forall f :: f in r <==> f in fs && !Truthy(Get(d, f))
  {
    if fs == [] then []
    else if Truthy(Get(d, fs[0])) then Unfilled(d, fs[1..])
    else
      var r := [fs[0]] + Unfilled(d, fs[1..]);
      assert r[1..] == Unfilled(d, fs[1..]);
      r
  }

  function Labels(fs: seq<Field>): (r: seq<string>)
    ensures |r| == |fs|
    ensures forall i :: 0 <= i < |r| ==> r[i] == Label(fs[i])
  {
    seq(|fs|, i requires 0 <= i < |fs| => Label(fs[i]))
  }

  /** Only the skills property carries the skills label. */
  lemma SkillsLabelIsUnique(f: Field)
    ensures Label(f) == "Required Skills" <==> f == Skills
  {
    match f
    case Title => case Description => case Department => case Qualifications =>
    case Experience => case SalaryFrom => case SalaryTo => case JobType =>
    case Schedule => case Location => case ReportingManager => case Skills =>
    case StartDate => case EndDate => case Urgency => case Preferences => case Status =>
  }

  /** Nothing is unfilled exactly when every listed property is truthy. */
  lemma NothingUnfilled(d: Draft, fs: seq<Field>)
    ensures Unfilled(d, fs) == [] <==> forall f :: f in fs ==> Truthy(Get(d, f))
  {
    var missing := Unfilled(d, fs);
    if missing != [] {
      assert missing[0] in missing;
    }
  }

  /** Labels are single lines. */
  lemma LabelIsOneLine(f: Field)
    ensures '\n' !in Label(f)
  {
    match f
    case Schedule | ReportingManager | EndDate | Preferences | Status => KeyLabelIsOneLine(f);
    case _ => NamedLabelIsOneLine(f);
  }

  /** The properties labelled by their key have one-line keys. */
  lemma KeyLabelIsOneLine(f: Field)
    requires f in {Schedule, ReportingManager, EndDate, Preferences, Status}
    ensures '\n' !in Label(f)
  {
    match f
    case Schedule => case ReportingManager => case EndDate => case Preferences => case Status =>
  }

  /** The properties with a label of their own have one-line labels. */
  lemma NamedLabelIsOneLine(f: Field)
    requires f !in {Schedule, ReportingManager, EndDate, Preferences, Status}
    ensures '\n' !in Label(f)
  {
    match f
    case Title => case Description => case Department => case Qualifications =>
    case Experience => case SalaryFrom => case SalaryTo => case JobType =>
    case Location => case Skills => case StartDate => case Urgency =>
  }

  /** Every required property is truthy. */
  predicate Filled(d: Draft) {
    forall f :: f in RequiredFields ==> Truthy(Get(d, f))
  }

  /** Both dates are given and the start is strictly after the end, with
      `instant` reading a date text as a point in time. */
  predicate DatesReversed(d: Draft, instant: string -> int) {
    && d.startDate != ""
    && d.endDate.Some? && d.endDate.value != ""
    && instant(d.startDate) > instant(d.endDate.value)
  }

  /** Why a submission is blocked. */
  datatype Rejection = MissingFields(labels: seq<string>) | SalaryRange | DatesReversedError | NoSkills

  /** The checks run at submission, in their fixed order; the first failing
      category blocks, and only missing fields are collected. */
  function Validate(d: Draft, instant: string -> int): (r: Outcome<Rejection>)
    ensures (r.Fail? && r.error.MissingFields?) <==> !Filled(d)
    ensures r.Fail? && r.error.MissingFields? ==> r.error.labels == MissingLabels(d)
    ensures r == Fail(SalaryRange) <==> Filled(d) && d.salaryFrom > d.salaryTo
    ensures r == Fail(DatesReversedError) <==>
      Filled(d) && d.salaryFrom <= d.salaryTo && DatesReversed(d, instant)
    ensures r == Fail(NoSkills) <==>
      Filled(d) && d.salaryFrom <= d.salaryTo && !DatesReversed(d, instant) && d.skills == []
    ensures r == Pass <==>
      Filled(d) && d.salaryFrom <= d.salaryTo && !DatesReversed(d, instant) && d.skills != []
  {
    NothingUnfilled(d, RequiredFields);
    if Unfilled(d, RequiredFields) != [] then
      Fail(MissingFields(MissingLabels(d)))
    else if d.salaryFrom > d.salaryTo then
      Fail(SalaryRange)
    else if DatesReversed(d, instant) then
      Fail(DatesReversedError)
    else if |d.skills| == 0 then
      Fail(NoSkills)
    else
      Pass
  }

  /** The labels of the unfilled requirements, in declared order. */
  function MissingLabels(d: Draft): seq<string> {
    Labels(Unfilled(d, RequiredFields))
  }

  /** A required property that is falsy has its label listed. */
  lemma FalsyRequiredIsListed(d: Draft, f: Field)
    requires f in RequiredFields && !Truthy(Get(d, f))
    ensures Label(f) in MissingLabels(d)
  {
    var missing := Unfilled(d, RequiredFields);
    assert f in missing;
    var k :| 0 <= k < |missing| && missing[k] == f;
    assert Labels(missing)[k] == Label(f);
  }

  /** A salary of zero counts as missing. */
  lemma ZeroSalaryIsMissing(d: Draft)
    requires d.salaryFrom == 0
    ensures "Minimum Salary" in MissingLabels(d)
  {
    FalsyRequiredIsListed(d, SalaryFrom);
  }

  /** Skills are never listed as unfilled: an array, even an empty one, is
      truthy. */
  lemma SkillsNeverListed(d: Draft, fs: seq<Field>)
    ensures "Required Skills" !in Labels(Unfilled(d, fs))
  {
    var missing := Unfilled(d, fs);
    forall k | 0 <= k < |missing|
      ensures Labels(missing)[k] != "Required Skills"
    {
      assert missing[k] in missing;
      SkillsLabelIsUnique(missing[k]);
    }
  }

  /** An empty skills list is never reported missing. */
  lemma EmptySkillsAreNotMissing(d: Draft)
    ensures "Required Skills" !in MissingLabels(d)
  {
    SkillsNeverListed(d, RequiredFields);
  }

  /** A draft without skills is always blocked. */
  lemma EmptySkillsAreRejected(d: Draft, instant: string -> int)
    requires d.skills == []
    ensures Validate(d, instant).Fail?
  {
  }

  /** The alert text for each reason. Only the missing-fields alert opens
      with the missing-fields heading. */
  function AlertText(r: Rejection): (t: string)
    ensures (|t| >= |MissingPrefix| && t[..|MissingPrefix|] == MissingPrefix) <==> r.MissingFields?
  {
    match r
    case MissingFields(labels) =>
      var t := MissingPrefix + Join(labels, '\n');
      assert t[..|MissingPrefix|] == MissingPrefix;
      t
    case SalaryRange =>
      var t := "Minimum salary cannot be " + "greater than maximum salary";
      assert t[0] != MissingPrefix[0];
      t
    case DatesReversedError => "Start date cannot be after end date"
    case NoSkills =>
      var t := "Please select at least one required skill";
      assert t[7] != MissingPrefix[7];
      t
  }

  const MissingPrefix := "Please fill in the following " + "required fields:\n"

  /** The missing-fields alert lists every missing label on its own line, in
      declared order. */
  lemma MissingAlertLines(d: Draft)
    requires !Filled(d)
    ensures Split(AlertText(MissingFields(MissingLabels(d)))[|MissingPrefix|..], '\n') == MissingLabels(d)
  {
    NothingUnfilled(d, RequiredFields);
    var labels := MissingLabels(d);
    forall i | 0 <= i < |labels|
      ensures '\n' !in labels[i]
    {
      LabelIsOneLine(Unfilled(d, RequiredFields)[i]);
    }
    SplitJoin(labels, '\n');
    assert AlertText(MissingFields(labels))[|MissingPrefix|..] == Join(labels, '\n');
  }

  // ---------------------------------------------------------------------
  // Submission

  /** The record handed to the callbacks: status forced to "Active", an empty
      end date dropped, every other property as entered. Dates are kept as
      they are: the ISO rendering is not part of this model. */
  function Format(d: Draft): (r: Draft)
    ensures r.status == "Active"
    ensures r.endDate == (if Truthy(Get(d, EndDate)) then d.endDate else None)
    ensures forall f :: f != EndDate && f != Status ==> Get(r, f) == Get(d, f)
  {
    d.(endDate := if d.endDate.Some? && d.endDate.value != "" then d.endDate else None,
       status := "Active")
  }

  /** What a submission does. */
  datatype Action = Alert(reason: Rejection) | CallCreate(draft: Draft) | CallUpdate(job: Job)

  /** After a submission: the form's contents, the job being edited (the
      jobs page's editing state, which `onClear` resets), and the action
      taken. */
  datatype Submitted = Submitted(form: Draft, editing: Option<Job>, action: Action)

  /** Submitting the form: a blocked draft raises an alert and the form and
      the editing state stay as they were; an accepted one is formatted and
      handed to the create callback, or, when a job is being edited, laid
      over that job and handed to the update callback; the form is then
      reset and the editing state cleared. */
  function Submit(d: Draft, editing: Option<Job>, instant: string -> int): (s: Submitted)
    ensures s.action.Alert? <==> Validate(d, instant).Fail?
    ensures s.action.Alert? ==>
      s.action.reason == Validate(d, instant).error && s.form == d && s.editing == editing
    ensures !s.action.Alert? ==> s.form == Blank() && s.editing == None
    ensures s.action.CallCreate? <==> Validate(d, instant).Pass? && editing.None?
    ensures s.action.CallUpdate? <==> Validate(d, instant).Pass? && editing.Some?
    ensures s.action.CallCreate? ==> s.action.draft == Format(d)
    ensures s.action.CallUpdate? ==> s.action.job == editing.value.(posting := Format(d))
    ensures s.action.CallCreate? ==> s.action.draft.status == "Active"
    ensures s.action.CallUpdate? ==>
      && s.action.job.id == editing.value.id
      && s.action.job.createdAt == editing.value.createdAt
      && s.action.job.posting.status == "Active"
  {
    match Validate(d, instant)
    case Fail(reason) => Submitted(d, editing, Alert(reason))
    case Pass =>
      var formatted := Format(d);
      match editing
      case None => Submitted(Blank(), None, CallCreate(formatted))
      case Some(job) => Submitted(Blank(), None, CallUpdate(job.(posting := formatted)))
  }

  /** Once an edit is saved the editing state is cleared, so the next
      accepted submission creates a job rather than updating the edited one
      again. */
  lemma SavedEditThenCreates(d: Draft, job: Job, next: Draft, instant: string -> int)
    requires Validate(d, instant).Pass? && Validate(next, instant).Pass?
    ensures Submit(d, Some(job), instant).action.CallUpdate?
    ensures Submit(next, Submit(d, Some(job), instant).editing, instant).action == CallCreate(Format(next))
  {
  }

  /** A draft with any falsy required property reaches neither callback. */
  lemma MissingFieldBlocksSubmit(d: Draft, editing: Option<Job>, instant: string -> int, f: Field)
    requires f in RequiredFields && !Truthy(Get(d, f))
    ensures Submit(d, editing, instant).action == Alert(MissingFields(MissingLabels(d)))
    ensures Label(f) in Submit(d, editing, instant).action.reason.labels
  {
    FalsyRequiredIsListed(d, f);
  }

  /** Equal salary bounds pass the range check. */
  lemma EqualSalariesPassRange(d: Draft, instant: string -> int)
    requires d.salaryFrom == d.salaryTo
    ensures Validate(d, instant) != Fail(SalaryRange)
  {
  }

  /** An absent or empty end date skips the date check. */
  lemma NoEndDateSkipsDateCheck(d: Draft, instant: string -> int)
    requires d.endDate == None || d.endDate == Some("")
    ensures Validate(d, instant) != Fail(DatesReversedError)
  {
  }
}

=== FILE: js.dfy ===
/** The pieces of JavaScript's runtime semantics the job form and the gateway
    rely on: truthiness, `Number(text)` on a number input's value,
    `String.prototype.includes`, `trim`, `split` and `join`. */
module Js {
  import opened Wrappers

  /** A JavaScript value as it can appear in a job record. Numbers are
      modelled as integers; `Undefined` also stands for `null`. */
  datatype Value = Undefined | Text(text: string) | Number(number: int) | Strings(items: seq<string>)

  /** JavaScript's ToBoolean: the empty string, zero and undefined/null are
      falsy; every array, including the empty one, is truthy. */
  predicate Truthy(v: Value) {
    match v
    case Undefined => false
    case Text(s) => s != ""
    case Number(n) => n != 0
    case Strings(_) => true
  }

  /** An optional string property: absent reads as `undefined`. */
  function OfOptional(o: Option<string>): Value {
    match o
    case None => Undefined
    case Some(s) => Text(s)
  }

  // ---------------------------------------------------------------------
  // `s.includes(t)`

  function Includes(s: string, t: string): bool
    decreases |s|
  {
    if |s| < |t| then false
    else if s[..|t|] == t then true
    else Includes(s[1..], t)
  }

  /** A text that starts with `t` includes it. */
  lemma PrefixIsIncluded(s: string, t: string)
    requires |t| <= |s| && s[..|t|] == t
    ensures Includes(s, t)
  {
  }

  /** A text lacking one of `t`'s characters does not include `t`. */
  lemma {:induction false} LackingCharExcludes(s: string, t: string, c: char)
    requires c in t && c !in s
    ensures !Includes(s, t)
    decreases |s|
  {
    if |t| <= |s| {
      var k :| 0 <= k < |t| && t[k] == c;
      assert s[..|t|][k] != t[k];
      assert c !in s[1..];
      LackingCharExcludes(s[1..], t, c);
    }
  }

  // ---------------------------------------------------------------------
  // `Number(text)` on the value of an `<input type="number">`

  predicate IsDigit(c: char) {
    '0' <= c <= '9'
  }

  predicate AllDigits(s: string) {
    forall i :: 0 <= i < |s| ==> IsDigit(s[i])
  }

  function DigitValue(c: char): nat
    requires IsDigit(c)
  {
    c as int - '0' as int
  }

  /** The value of a string of decimal digits, most significant first. */
  function DigitsValue(s: string): nat
    requires AllDigits(s)
  {
    if s == [] then 0 else DigitsValue(s[..|s| - 1]) * 10 + DigitValue(s[|s| - 1])
  }

  /** `Number(value)`: the empty string is 0, an optionally negated run of
      decimal digits is its integer value, and every other text (which
      JavaScript turns into NaN) is 0 here: both are falsy. */
  function ToNumber(s: string): int {
    if s == [] then 0
    else if s[0] == '-' && |s| > 1 && AllDigits(s[1..]) then -(DigitsValue(s[1..]) as int)
    else if AllDigits(s) then DigitsValue(s)
    else 0
  }

  function DigitChar(d: nat): (c: char)
    requires d < 10
    ensures IsDigit(c) && DigitValue(c) == d
  {
    ('0' as int + d) as char
  }

  /** The decimal rendering of a natural number, without leading zeros. */
  function DecimalDigits(n: nat): (s: string)
    ensures |s| > 0 && AllDigits(s)
  {
    if n < 10 then [DigitChar(n)] else DecimalDigits(n / 10) + [DigitChar(n % 10)]
  }

  /** The text a number input shows for an integer. */
  function DecimalText(n: int): string {
    if n < 0 then "-" + DecimalDigits(-n) else DecimalDigits(n)
  }

  lemma {:induction false} DigitsRoundTrip(n: nat)
    ensures DigitsValue(DecimalDigits(n)) == n
  {
    if n >= 10 {
      DigitsRoundTrip(n / 10);
      var s := DecimalDigits(n);
      assert s[..|s| - 1] == DecimalDigits(n / 10);
    }
  }

  /** `Number` reads back every integer a number input can display. */
  lemma ToNumberReadsDecimalText(n: int)
    ensures ToNumber(DecimalText(n)) == n
  {
    DigitsRoundTrip(if n < 0 then -n else n);
    if n < 0 {
      assert DecimalText(n)[1..] == DecimalDigits(-n);
    }
  }

  // ---------------------------------------------------------------------
  // `s.trim()`

  /** The characters `String.prototype.trim` removes: white space and line
      terminators. */
  predicate IsSpace(c: char) {
    || c in {' ', '\t', '\n', '\r', '\U{000B}', '\U{000C}', '\U{00A0}', '\U{1680}',
             '\U{2028}', '\U{2029}', '\U{202F}', '\U{205F}', '\U{3000}', '\U{FEFF}'}
    || '\U{2000}' <= c <= '\U{200A}'
  }

  /** Every character of `s` is white space. */
  predicate AllSpace(s: string) {
    forall k :: 0 <= k < |s| ==> IsSpace(s[k])
  }

  /** `s` with its leading white space removed: a suffix of `s` that is
      empty exactly when `s` is all white space and otherwise starts with a
      non-space. */
  function TrimStart(s: string): (r: string)
    ensures |r| <= |s| && r == s[|s| - |r|..]
    ensures r == [] <==> AllSpace(s)
    ensures r == [] || !IsSpace(r[0])
    decreases |s|
  {
    if s != [] && IsSpace(s[0]) then
      assert forall k :: 0 < k < |s| ==> s[k] == s[1..][k - 1];
      TrimStart(s[1..])
    else s
  }

  /** `s` with its trailing white space removed: a prefix of `s` that is
      empty exactly when `s` is all white space and otherwise ends with a
      non-space. */
  function TrimEnd(s: string): (r: string)
    ensures |r| <= |s| && r == s[..|r|]
    ensures r == [] <==> AllSpace(s)
    ensures r == [] || !IsSpace(r[|r| - 1])
    decreases |s|
  {
    if s != [] && IsSpace(s[|s| - 1]) then
      assert forall k :: 0 <= k < |s| - 1 ==> s[k] == s[..|s| - 1][k];
      TrimEnd(s[..|s| - 1])
    else s
  }

  /** `s.trim()`: the result is a slice of `s` that neither starts nor ends
      with white space, it is empty exactly when `s` is all white space, and
      a text with no surrounding white space is its own trim. */
  function Trim(s: string): (r: string)
    ensures r == [] || (!IsSpace(r[0]) && !IsSpace(r[|r| - 1]))
    ensures r == [] <==> AllSpace(s)
    ensures (s == [] || (!IsSpace(s[0]) && !IsSpace(s[|s| - 1]))) ==> r == s
    ensures forall c :: c in r ==> c in s
  {
    TrimEnds(s);
    TrimChars(s);
    TrimEnd(TrimStart(s))
  }

  /** Trimming both ends leaves no white space at either end, is empty
      exactly for an all-white text, and leaves a text without surrounding
      white space alone. */
  lemma TrimEnds(s: string)
    ensures var r := TrimEnd(TrimStart(s));
      && (r == [] || (!IsSpace(r[0]) && !IsSpace(r[|r| - 1])))
      && (r == [] <==> AllSpace(s))
      && ((s == [] || (!IsSpace(s[0]) && !IsSpace(s[|s| - 1]))) ==> r == s)
  {
    var a := TrimStart(s);
    var r := TrimEnd(a);
    if a != [] {
      assert !AllSpace(a) by { assert !IsSpace(a[0]); }
      assert r[0] == a[0];
    }
  }

  /** Trimming both ends keeps a slice of the text. */
  lemma TrimChars(s: string)
    ensures forall c :: c in TrimEnd(TrimStart(s)) ==> c in s
  {
    var a := TrimStart(s);
    var r := TrimEnd(a);
    assert r == s[|s| - |a|..|s| - |a| + |r|];
    SliceChars(s, |s| - |a|, |s| - |a| + |r|);
  }

  /** Characters of a slice occur in the whole. */
  lemma SliceChars(s: string, i: nat, j: nat)
    requires i <= j <= |s|
    ensures forall c :: c in s[i..j] ==> c in s
  {
    forall c | c in s[i..j]
      ensures c in s
    {
      var k :| 0 <= k < j - i && s[i..j][k] == c;
      assert s[i + k] == c;
    }
  }

  // ---------------------------------------------------------------------
  // `s.split(sep)` and `parts.join(sep)` for a one-character separator

  /** `s.split(sep)`: the maximal separator-free pieces of `s`, in order;
      splitting the empty string gives one empty piece. */
  function Split(s: string, sep: char): (parts: seq<string>)
    ensures |parts| >= 1
    ensures forall i :: 0 <= i < |parts| ==> sep !in parts[i]
    decreases |s|
  {
    if s == [] then [[]]
    else
      var rest := Split(s[1..], sep);
      if s[0] == sep then [[]] + rest
      else [[s[0]] + rest[0]] + rest[1..]
  }

  /** `parts.join(sep)`: the empty list joins to the empty string. */
  function Join(parts: seq<string>, sep: char): string {
    if |parts| == 0 then []
    else if |parts| == 1 then parts[0]
    else parts[0] + [sep] + Join(parts[1..], sep)
  }

  /** Joining the pieces of a split gives back the original text. */
  lemma {:induction false} JoinSplit(s: string, sep: char)
    ensures Join(Split(s, sep), sep) == s
    decreases |s|
  {
    if s != [] {
      var rest := Split(s[1..], sep);
      JoinSplit(s[1..], sep);
      if s[0] == sep {
        assert Split(s, sep) == [[]] + rest;
      } else {
        var parts := Split(s, sep);
        assert parts == [[s[0]] + rest[0]] + rest[1..];
        if |rest| == 1 {
          assert Join(parts, sep) == [s[0]] + rest[0];
        } else {
          assert parts[1..] == rest[1..];
          assert Join(rest, sep) == rest[0] + [sep] + Join(rest[1..], sep);
        }
      }
    }
  }

  /** A separator-free text is a single piece. */
  lemma {:induction false} SplitWithoutSeparator(a: string, sep: char)
    requires sep !in a
    ensures Split(a, sep) == [a]
    decreases |a|
  {
    if a != [] {
      SplitWithoutSeparator(a[1..], sep);
      assert [a[0]] + a[1..] == a;
    }
  }

  /** Splitting at the first separator. */
  lemma {:induction false} SplitAtSeparator(a: string, b: string, sep: char)
    requires sep !in a
    ensures Split(a + [sep] + b, sep) == [a] + Split(b, sep)
    decreases |a|
  {
    if a == [] {
      assert a + [sep] + b == [sep] + b;
      assert ([sep] + b)[1..] == b;
    } else {
      SplitAtSeparator(a[1..], b, sep);
      var s := a + [sep] + b;
      assert s[0] == a[0];
      assert s[1..] == a[1..] + [sep] + b;
      assert [a[0]] + a[1..] == a;
    }
  }

  /** Splitting a join of separator-free pieces gives back the pieces. */
  lemma {:induction false} SplitJoin(parts: seq<string>, sep: char)
    requires |parts| >= 1
    requires forall i :: 0 <= i < |parts| ==> sep !in parts[i]
    ensures Split(Join(parts, sep), sep) == parts
    decreases |parts|
  {
    if |parts| == 1 {
      SplitWithoutSeparator(parts[0], sep);
    } else {
      SplitJoin(parts[1..], sep);
      SplitAtSeparator(parts[0], Join(parts[1..], sep), sep);
      assert [parts[0]] + parts[1..] == parts;
    }
  }
}

=== FILE: seqs.dfy ===
/** Order-preserving selection from a sequence. */
module Seqs {

  /** `a` can be obtained from `b` by dropping elements, keeping the order of
      the rest. */
  predicate IsSubsequence<T(==)>(a: seq<T>, b: seq<T>)
    decreases |b|
  {
    || a == []
    || (b != [] && ((a[0] == b[0] && IsSubsequence(a[1..], b[1..])) || IsSubsequence(a, b[1..])))
  }

  /** Everything a subsequence holds comes from the sequence it was taken from. */
  lemma {:induction false} SubsequenceMembers<T>(a: seq<T>, b: seq<T>, x: T)
    requires IsSubsequence(a, b) && x in a
    ensures x in b
    decreases |b|
  {
    if a[0] == b[0] && IsSubsequence(a[1..], b[1..]) {
      if x != a[0] {
        assert x in a[1..];
        SubsequenceMembers(a[1..], b[1..], x);
      }
    } else {
      SubsequenceMembers(a, b[1..], x);
    }
  }

  /** Taking one element out of a sequence takes it out of its multiset. */
  lemma DropOne<T>(s: seq<T>, k: nat)
    requires k < |s|
    ensures multiset(s) == multiset(s[..k] + s[k + 1..]) + multiset{s[k]}
  {
    assert s == s[..k] + [s[k]] + s[k + 1..];
  }

  /** Multisets that are equal once the same element is added are equal. */
  lemma CancelOne<T>(m: multiset<T>, n: multiset<T>, x: T)
    requires m + multiset{x} == n + multiset{x}
    ensures m == n
  {
    assert m == (m + multiset{x}) - multiset{x};
    assert n == (n + multiset{x}) - multiset{x};
  }
}

=== FILE: supabase_jobs.dfy ===
/** The gateway to the hosted `jobs` table: the renaming between the
    camelCase job record and the snake_case row, the truthy-only update
    patch, and the four table operations. The table is a sequence of rows.
    What the hosted service answers (a body, an error message, or no body)
    is a parameter, and so are the identifier and timestamp it assigns to
    an inserted row. */
module SupabaseJobs {
  import opened Wrappers
  import opened Js
  import opened Seqs
  import opened Types

  // ---------------------------------------------------------------------
  // Rows

  /** The columns of a `jobs` row other than `id` and `created_at`. A
      `skills` cell that is not an array (null) is `None`. */
  datatype Columns = Columns(
    title: string,
    description: string,
    department: string,
    qualifications: string,
    experience: string,
    salary_from: int,
    salary_to: int,
    job_type: string,
    schedule: string,
    location: string,
    reporting_manager: string,
    skills: Option<seq<string>>,
    start_date: string,
    end_date: Option<string>,
    urgency: string,
    preferences: Option<string>,
    status: string)

  /** A stored row: `id` and `created_at` are assigned by the store. */
  datatype Row = Row(id: string, created_at: int, columns: Columns)

  type Table = seq<Row>

  /** Every property of the record, in declared order. */
  const AllFields: seq<Field> := [
    Title, Description, Department, Qualifications, Experience, SalaryFrom,
    SalaryTo, JobType, Schedule, Location, ReportingManager, Skills,
    StartDate, EndDate, Urgency, Preferences, Status]

  lemma EveryFieldListed(f: Field)
    ensures f in AllFields
  {
    match f
    case Title => case Description => case Department => case Qualifications =>
    case Experience => case SalaryFrom => case SalaryTo => case JobType =>
    case Schedule => case Location => case ReportingManager => case Skills =>
    case StartDate => case EndDate => case Urgency => case Preferences => case Status =>
  }

  lemma AllFieldsListed()
    ensures forall f :: f in AllFields
  {
    forall f
      ensures f in AllFields
    {
      EveryFieldListed(f);
    }
  }

  /** The column a property is stored in. */
  function ColumnName(f: Field): string {
    match f
    case Title => "title"
    case Description => "description"
    case Department => "department"
    case Qualifications => "qualifications"
    case Experience => "experience"
    case SalaryFrom => "salary_from"
    case SalaryTo => "salary_to"
    case JobType => "job_type"
    case Schedule => "schedule"
    case Location => "location"
    case ReportingManager => "reporting_manager"
    case Skills => "skills"
    case StartDate => "start_date"
    case EndDate => "end_date"
    case Urgency => "urgency"
    case Preferences => "preferences"
    case Status => "status"
  }

  /** The property stored under a column name, if any. */
  function FieldNamed(name: string): Option<Field> {
    if name == "title" then Some(Title)
    else if name == "description" then Some(Description)
    else if name == "department" then Some(Department)
    else if name == "qualifications" then Some(Qualifications)
    else if name == "experience" then Some(Experience)
    else if name == "salary_from" then Some(SalaryFrom)
    else if name == "salary_to" then Some(SalaryTo)
    else if name == "job_type" then Some(JobType)
    else if name == "schedule" then Some(Schedule)
    else if name == "location" then Some(Location)
    else if name == "reporting_manager" then Some(ReportingManager)
    else if name == "skills" then Some(Skills)
    else if name == "start_date" then Some(StartDate)
    else if name == "end_date" then Some(EndDate)
    else if name == "urgency" then Some(Urgency)
    else if name == "preferences" then Some(Preferences)
    else if name == "status" then Some(Status)
    else None
  }

  /** Looking a column name up gives back its property. */
  lemma FieldNamedColumn(f: Field)
    ensures FieldNamed(ColumnName(f)) == Some(f)
  {
    match f
    case Title | Description | Department | Qualifications | Experience | SalaryFrom | SalaryTo | JobType =>
      EarlyColumnsNamed(f);
    case _ => LateColumnsNamed(f);
  }

  /** The columns looked up among the first eight names. */
  lemma EarlyColumnsNamed(f: Field)
    requires f in {Title, Description, Department, Qualifications, Experience, SalaryFrom, SalaryTo, JobType}
    ensures FieldNamed(ColumnName(f)) == Some(f)
  {
    match f
    case Title => case Description => case Department => case Qualifications =>
    case Experience => case SalaryFrom => case SalaryTo => case JobType =>
  }

  /** The columns looked up among the last nine names. */
  lemma LateColumnsNamed(f: Field)
    requires f !in {Title, Description, Department, Qualifications, Experience, SalaryFrom, SalaryTo, JobType}
    ensures FieldNamed(ColumnName(f)) == Some(f)
  {
    match f
    case Schedule => case Location => case ReportingManager => case Skills =>
    case StartDate => case EndDate => case Urgency => case Preferences => case Status =>
  }

  /** The store's own keys name no property. */
  lemma StoreKeysAreNoColumns()
    ensures FieldNamed("id") == None && FieldNamed("created_at") == None
  {
  }

  /** Distinct properties have distinct columns, and none of them is stored
      under `id` or `created_at`. */
  lemma ColumnNamesDistinct()
    ensures forall f, g :: ColumnName(f) == ColumnName(g) ==> f == g
    ensures forall f :: ColumnName(f) != "id" && ColumnName(f) != "created_at"
  {
    forall f, g | ColumnName(f) == ColumnName(g)
      ensures f == g
    {
      FieldNamedColumn(f);
      FieldNamedColumn(g);
    }
    StoreKeysAreNoColumns();
    forall f
      ensures ColumnName(f) != "id" && ColumnName(f) != "created_at"
    {
      FieldNamedColumn(f);
    }
  }

  /** `row[column]`: the JavaScript value a cell holds. */
  function Cell(c: Columns, f: Field): Value {
    match f
    case Title => Text(c.title)
    case Description => Text(c.description)
    case Department => Text(c.department)
    case Qualifications => Text(c.qualifications)
    case Experience => Text(c.experience)
    case SalaryFrom => Number(c.salary_from)
    case SalaryTo => Number(c.salary_to)
    case JobType => Text(c.job_type)
    case Schedule => Text(c.schedule)
    case Location => Text(c.location)
    case ReportingManager => Text(c.reporting_manager)
    case Skills => (match c.skills case None => Undefined case Some(xs) => Strings(xs))
    case StartDate => Text(c.start_date)
    case EndDate => OfOptional(c.end_date)
    case Urgency => Text(c.urgency)
    case Preferences => OfOptional(c.preferences)
    case Status => Text(c.status)
  }

  /** Two column sets that agree on every cell are the same. */
  lemma SameCellsSameColumns(a: Columns, b: Columns)
    requires forall f :: Cell(a, f) == Cell(b, f)
    ensures a == b
  {
    SameDescriptionColumns(a, b);
    SameTermsColumns(a, b);
  }

  /** Agreeing cells give the same descriptive columns. */
  lemma SameDescriptionColumns(a: Columns, b: Columns)
    requires forall f :: Cell(a, f) == Cell(b, f)
    ensures a.title == b.title && a.description == b.description
    ensures a.department == b.department && a.qualifications == b.qualifications
    ensures a.experience == b.experience && a.skills == b.skills
    ensures a.location == b.location && a.preferences == b.preferences
  {
    assert Cell(a, Title) == Cell(b, Title);
    assert Cell(a, Description) == Cell(b, Description);
    assert Cell(a, Department) == Cell(b, Department);
    assert Cell(a, Qualifications) == Cell(b, Qualifications);
    assert Cell(a, Experience) == Cell(b, Experience);
    assert Cell(a, Skills) == Cell(b, Skills);
    assert Cell(a, Location) == Cell(b, Location);
    assert Cell(a, Preferences) == Cell(b, Preferences);
  }

  /** Agreeing cells give the same pay, schedule and status columns. */
  lemma SameTermsColumns(a: Columns, b: Columns)
    requires forall f :: Cell(a, f) == Cell(b, f)
    ensures a.salary_from == b.salary_from && a.salary_to == b.salary_to
    ensures a.job_type == b.job_type && a.schedule == b.schedule
    ensures a.reporting_manager == b.reporting_manager && a.start_date == b.start_date
    ensures a.end_date == b.end_date && a.urgency == b.urgency && a.status == b.status
  {
    assert Cell(a, SalaryFrom) == Cell(b, SalaryFrom);
    assert Cell(a, SalaryTo) == Cell(b, SalaryTo);
    assert Cell(a, JobType) == Cell(b, JobType);
    assert Cell(a, Schedule) == Cell(b, Schedule);
    assert Cell(a, ReportingManager) == Cell(b, ReportingManager);
    assert Cell(a, StartDate) == Cell(b, StartDate);
    assert Cell(a, EndDate) == Cell(b, EndDate);
    assert Cell(a, Urgency) == Cell(b, Urgency);
    assert Cell(a, Status) == Cell(b, Status);
  }

  // ---------------------------------------------------------------------
  // Mapping between the record and the row

  /** The row written by a create: every property under its column, both
      salaries through `Number`, skills always an array, and an empty status
      replaced by "Active". */
  function ToColumns(d: Draft): (c: Columns)
    ensures forall f :: f != Status ==> Cell(c, f) == Get(d, f)
    ensures c.skills.Some?
    ensures Truthy(Get(d, Status)) ==> Cell(c, Status) == Get(d, Status)
    ensures !Truthy(Get(d, Status)) ==> c.status == "Active"
  {
    Columns(
      d.title, d.description, d.department, d.qualifications, d.experience,
      d.salaryFrom, d.salaryTo, d.jobType, d.schedule, d.location,
      d.reportingManager, Some(d.skills), d.startDate, d.endDate, d.urgency,
      d.preferences, if d.status != "" then d.status else "Active")
  }

  /** A row's cells under their camelCase names, with the skills cell as
      stored. */
  function RawPosting(c: Columns): (p: Posting<Option<SkillList>>)
    ensures p.skills == c.skills
  {
    Posting(
      c.title, c.description, c.department, c.qualifications, c.experience,
      c.salary_from, c.salary_to, c.job_type, c.schedule, c.location,
      c.reporting_manager, c.skills, c.start_date, c.end_date, c.urgency,
      c.preferences, c.status)
  }

  /** `Array.isArray(skills) ? skills : []`. */
  function Normalise(p: Posting<Option<SkillList>>): (d: Draft)
    ensures d.skills == p.skills.GetOr([])
  {
    Posting(
      p.title, p.description, p.department, p.qualifications, p.experience,
      p.salaryFrom, p.salaryTo, p.jobType, p.schedule, p.location,
      p.reportingManager, p.skills.GetOr([]), p.startDate, p.endDate, p.urgency,
      p.preferences, p.status)
  }

  /** A row as listed or returned by a create: every cell under its
      camelCase name, and a skills cell that is not an array read as no
      skills. */
  function ReadRow(r: Row): (j: Job)
    ensures j.id == r.id && j.createdAt == r.created_at
    ensures forall f :: f != Skills ==> Get(j.posting, f) == Cell(r.columns, f)
    ensures j.posting.skills == r.columns.skills.GetOr([])
  {
    Job(r.id, r.created_at, Normalise(RawPosting(r.columns)))
  }

  /** A row as returned by an update: the same renaming, but the skills cell
      is passed through as stored. */
  function ReadUpdated(r: Row): (j: JobOf<Option<SkillList>>)
    ensures j.id == r.id && j.createdAt == r.created_at
    ensures j.posting.skills == r.columns.skills
    ensures ReadRow(r) == Job(j.id, j.createdAt, Normalise(j.posting))
  {
    Job(r.id, r.created_at, RawPosting(r.columns))
  }

  /** Writing a record and reading the row back gives the record with the
      store's identifier and timestamp, and with "Active" for an empty
      status. */
  lemma RecordRoundTrip(d: Draft, id: string, createdAt: int)
    ensures var j := ReadRow(Row(id, createdAt, ToColumns(d)));
      && j.id == id && j.createdAt == createdAt
      && (forall f :: f != Status ==> Get(j.posting, f) == Get(d, f))
      && (d.status != "" ==> j.posting == d)
      && (d.status == "" ==> j.posting == d.(status := "Active"))
  {
  }

  /** Reading a row and writing the record back gives the same cells, when
      the stored skills are an array and the status is non-empty. */
  lemma RowRoundTrip(r: Row)
    requires r.columns.skills.Some? && r.columns.status != ""
    ensures ToColumns(ReadRow(r).posting) == r.columns
  {
  }

  // ---------------------------------------------------------------------
  // The update patch

  /** The body of an update: column name to new value. */
  type Patch = map<string, Value>

  /** The patch for the properties among `fs`: each truthy one under its
      column name. */
  function PatchOf(d: Draft, fs: seq<Field>): (patch: Patch)
    ensures forall f :: ColumnName(f) in patch <==> f in fs && Truthy(Get(d, f))
    ensures forall f :: ColumnName(f) in patch ==> patch[ColumnName(f)] == Get(d, f)
    ensures forall k :: k in patch ==> FieldNamed(k).Some?
  {
    ColumnNamesDistinct();
    if fs == [] then map[]
    else
      var rest := PatchOf(d, fs[1..]);
      var f := fs[0];
      FieldNamedColumn(f);
      if Truthy(Get(d, f)) then rest[ColumnName(f) := Get(d, f)] else rest
  }

  /** `updateData`: exactly the truthy properties of the input, under their
      column names. Empty strings, zero salaries and absent optional values
      are left out; an array of skills, even an empty one, is always in. The
      store-assigned `id` and `created_at` never are. */
  function BuildPatch(d: Draft): (patch: Patch)
    ensures forall f :: ColumnName(f) in patch <==> Truthy(Get(d, f))
    ensures forall f :: ColumnName(f) in patch ==> patch[ColumnName(f)] == Get(d, f)
    ensures forall k :: k in patch ==> FieldNamed(k).Some?
    ensures "id" !in patch && "created_at" !in patch
  {
    StoreKeysAreNoColumns();
    AllFieldsListed();
    PatchOf(d, AllFields)
  }

  /** A value the column of `f` can hold. */
  predicate Fits(f: Field, v: Value) {
    match f
    case SalaryFrom => v.Number?
    case SalaryTo => v.Number?
    case Skills => v.Strings?
    case _ => v.Text?
  }

  /** The column set with the cell of `f` set to `v`. */
  function SetCell(c: Columns, f: Field, v: Value): (r: Columns)
    requires Fits(f, v)
    ensures Cell(r, f) == v
    ensures forall g :: g != f ==> Cell(r, g) == Cell(c, g)
  {
    match f
    case Title => c.(title := v.text)
    case Description => c.(description := v.text)
    case Department => c.(department := v.text)
    case Qualifications => c.(qualifications := v.text)
    case Experience => c.(experience := v.text)
    case SalaryFrom => c.(salary_from := v.number)
    case SalaryTo => c.(salary_to := v.number)
    case JobType => c.(job_type := v.text)
    case Schedule => c.(schedule := v.text)
    case Location => c.(location := v.text)
    case ReportingManager => c.(reporting_manager := v.text)
    case Skills => c.(skills := Some(v.items))
    case StartDate => c.(start_date := v.text)
    case EndDate => c.(end_date := Some(v.text))
    case Urgency => c.(urgency := v.text)
    case Preferences => c.(preferences := Some(v.text))
    case Status => c.(status := v.text)
  }

  /** The store's update on the columns among `fs`: a column named in the
      patch takes the patch's value, when the value fits the column. */
  function ApplyOver(c: Columns, patch: Patch, fs: seq<Field>): (r: Columns)
    ensures forall f :: Cell(r, f) ==
                        if f in fs && ColumnName(f) in patch && Fits(f, patch[ColumnName(f)])
                        then patch[ColumnName(f)] else Cell(c, f)
  {
    if fs == [] then c
    else
      var f := fs[0];
      var rest := ApplyOver(c, patch, fs[1..]);
      if ColumnName(f) in patch && Fits(f, patch[ColumnName(f)])
      then SetCell(rest, f, patch[ColumnName(f)])
      else rest
  }

  /** The store's update of one row's columns. */
  function ApplyPatch(c: Columns, patch: Patch): (r: Columns)
    ensures forall f :: Cell(r, f) ==
                        if ColumnName(f) in patch && Fits(f, patch[ColumnName(f)])
                        then patch[ColumnName(f)] else Cell(c, f)
  {
    AllFieldsListed();
    ApplyOver(c, patch, AllFields)
  }

  /** Updating with the patch of a record writes exactly the record's
      truthy properties and leaves every other cell as it was. */
  lemma PatchWritesTruthyOnly(c: Columns, d: Draft)
    ensures forall f :: Cell(ApplyPatch(c, BuildPatch(d)), f) ==
                        if Truthy(Get(d, f)) then Get(d, f) else Cell(c, f)
  {
    var patch := BuildPatch(d);
    forall f | Truthy(Get(d, f))
      ensures Fits(f, patch[ColumnName(f)])
    {
      match f
      case Title => case Description => case Department => case Qualifications =>
      case Experience => case SalaryFrom => case SalaryTo => case JobType =>
      case Schedule => case Location => case ReportingManager => case Skills =>
      case StartDate => case EndDate => case Urgency => case Preferences => case Status =>
    }
  }

  // ---------------------------------------------------------------------
  // Ordering by creation time

  /** Rows ordered by `created_at`, newest first. */
  predicate NewestFirst(rows: seq<Row>) {
    forall i, j :: 0 <= i < j < |rows| ==> rows[i].created_at >= rows[j].created_at
  }

  /** A row at least as new as the head of a newest-first sequence can go
      in front of it. */
  lemma PrependNewest(x: Row, rows: seq<Row>)
    requires NewestFirst(rows)
    requires rows != [] ==> rows[0].created_at <= x.created_at
    ensures NewestFirst([x] + rows)
  {
    var r := [x] + rows;
    forall i, j | 0 <= i < j < |r|
      ensures r[i].created_at >= r[j].created_at
    {
      if i == 0 && j > 1 {
        assert rows[0].created_at >= rows[j - 1].created_at;
      }
    }
  }

  /** The head of a newest-first sequence that is newer than `x` stays in
      front of the insertion of `x` into the remaining rows. */
  lemma KeepHead(x: Row, rows: seq<Row>, rest: seq<Row>)
    requires NewestFirst(rows) && rows != [] && rows[0].created_at > x.created_at
    requires NewestFirst(rest) && multiset(rest) == multiset(rows[1..]) + multiset{x}
    requires |rest| == |rows| && (rest[0] == x || (|rows| > 1 && rest[0] == rows[1]))
    ensures NewestFirst([rows[0]] + rest)
    ensures multiset([rows[0]] + rest) == multiset(rows) + multiset{x}
  {
    PrependNewest(rows[0], rest);
    assert [rows[0]] + rows[1..] == rows;
  }

  /** Inserts a row into a newest-first sequence, ahead of the rows that are
      not newer than it. */
  function Insert(x: Row, rows: seq<Row>): (r: seq<Row>)
    requires NewestFirst(rows)
    ensures NewestFirst(r)
    ensures multiset(r) == multiset(rows) + multiset{x}
    ensures |r| == |rows| + 1
    ensures r[0] == x || (rows != [] && r[0] == rows[0])
  {
    if rows == [] || rows[0].created_at <= x.created_at then
      PrependNewest(x, rows);
      [x] + rows
    else
      var rest := Insert(x, rows[1..]);
      KeepHead(x, rows, rest);
      [rows[0]] + rest
  }

  /** `.order("created_at", { ascending: false })`: the rows, rearranged
      newest first. The store leaves the order of equal timestamps open;
      this model picks one. */
  function OrderNewestFirst(rows: seq<Row>): (r: seq<Row>)
    ensures NewestFirst(r)
    ensures multiset(r) == multiset(rows)
  {
    if rows == [] then []
    else
      assert [rows[0]] + rows[1..] == rows;
      Insert(rows[0], OrderNewestFirst(rows[1..]))
  }

  /** The rows read as records, in order. */
  function ReadAll(rows: seq<Row>): (r: seq<Job>)
    ensures |r| == |rows|
    ensures forall i :: 0 <= i < |r| ==> r[i] == ReadRow(rows[i])
  {
    seq(|rows|, i requires 0 <= i < |rows| => ReadRow(rows[i]))
  }

  /** Reading rows without one of them gives their records without that
      row's record. */
  lemma ReadAllDrop(rows: seq<Row>, k: nat)
    requires k < |rows|
    ensures ReadAll(rows[..k] + rows[k + 1..]) == ReadAll(rows)[..k] + ReadAll(rows)[k + 1..]
  {
    var others := rows[..k] + rows[k + 1..];
    assert forall i :: 0 <= i < |others| ==> others[i] == if i < k then rows[i] else rows[i + 1];
  }

  /** The records of rows are those of the rows without one of them, plus
      that row's record. */
  lemma ReadAllWithout(rows: seq<Row>, k: nat)
    requires k < |rows|
    ensures multiset(ReadAll(rows)) == multiset(ReadAll(rows[..k] + rows[k + 1..])) + multiset{ReadRow(rows[k])}
    ensures k == 0 ==> multiset(ReadAll(rows)) == multiset(ReadAll(rows[1..])) + multiset{ReadRow(rows[0])}
  {
    assert rows[..0] + rows[1..] == rows[1..];
    ReadAllDrop(rows, k);
    DropOne(ReadAll(rows), k);
  }

  /** Taking the first row out of one permutation and the same row out of
      another leaves a permutation. */
  lemma PermutationWithout(a: seq<Row>, b: seq<Row>, k: nat)
    requires multiset(a) == multiset(b) && a != [] && k < |b| && b[k] == a[0]
    ensures multiset(a[1..]) == multiset(b[..k] + b[k + 1..])
  {
    assert a == [a[0]] + a[1..];
    DropOne(b, k);
    CancelOne(multiset(a[1..]), multiset(b[..k] + b[k + 1..]), a[0]);
  }

  /** Where a row of a permutation of `rows` sits in `rows`. */
  lemma Position(rows: seq<Row>, x: Row) returns (k: nat)
    requires x in multiset(rows)
    ensures k < |rows| && rows[k] == x
  {
    k :| 0 <= k < |rows| && rows[k] == x;
  }

  /** Rows that are a permutation of each other read as records that are a
      permutation of each other: reading keeps every row's count. */
  lemma {:induction false} ReadAllPermutes(a: seq<Row>, b: seq<Row>)
    requires multiset(a) == multiset(b)
    ensures multiset(ReadAll(a)) == multiset(ReadAll(b))
    decreases |a|
  {
    if a != [] {
      var k := Position(b, a[0]);
      PermutationWithout(a, b, k);
      ReadAllPermutes(a[1..], b[..k] + b[k + 1..]);
      ReadAllWithout(a, 0);
      ReadAllWithout(b, k);
    }
  }

  // ---------------------------------------------------------------------
  // Table operations

  /** How the store answers a request: with a body, with an error message,
      or with neither (the request took effect but no row came back). */
  datatype Reply = Returned | Error(message: string) | NoBody

  /** Why an operation throws: a store error rethrown as is, the store's
      refusal of an update that does not match exactly one row, the create
      wrapper's own error, or reading a null update response. */
  datatype JobsError =
    | StoreFailure(message: string)
    | NotOneRow
    | CreateFailed(message: string)
    | NullResponse

  /** The table after an operation, and what the operation returns or
      throws. */
  datatype Step<T> = Step(table: Table, result: Result<T, JobsError>)

  /** No two rows share an identifier. */
  predicate UniqueIds(table: Table) {
    forall i, j :: 0 <= i < j < |table| ==> table[i].id != table[j].id
  }

  /** The rows, newest first, read as records: every row listed once, and
      nothing else listed. */
  function ListJobs(table: Table): (r: seq<Job>)
    ensures |r| == |table|
    ensures forall i, j :: 0 <= i < j < |r| ==> r[i].createdAt >= r[j].createdAt
    ensures forall row :: row in table ==> ReadRow(row) in r
    ensures forall i :: 0 <= i < |r| ==> exists k :: 0 <= k < |table| && r[i] == ReadRow(table[k])
    ensures multiset(r) == multiset(ReadAll(table))
  {
    var ordered := OrderNewestFirst(table);
    ListedRows(table, ordered);
    ReadAllPermutes(ordered, table);
    ReadAll(ordered)
  }

  /** Reading a newest-first rearrangement of the table lists each of its
      rows, newest first, and nothing else. */
  lemma ListedRows(table: Table, ordered: seq<Row>)
    requires multiset(ordered) == multiset(table) && NewestFirst(ordered)
    ensures var r := ReadAll(ordered);
      && |r| == |table|
      && (forall i, j :: 0 <= i < j < |r| ==> r[i].createdAt >= r[j].createdAt)
      && (forall row :: row in table ==> ReadRow(row) in r)
      && (forall i :: 0 <= i < |r| ==> exists k :: 0 <= k < |table| && r[i] == ReadRow(table[k]))
  {
    assert |ordered| == |multiset(ordered)| == |multiset(table)| == |table|;
    var jobs := ReadAll(ordered);
    forall i, j | 0 <= i < j < |jobs|
      ensures jobs[i].createdAt >= jobs[j].createdAt
    {
      assert jobs[i] == ReadRow(ordered[i]) && jobs[j] == ReadRow(ordered[j]);
    }
    forall row | row in table
      ensures ReadRow(row) in jobs
    {
      assert row in multiset(ordered);
      var k :| 0 <= k < |ordered| && ordered[k] == row;
      assert jobs[k] == ReadRow(row);
    }
    forall i | 0 <= i < |jobs|
      ensures exists k :: 0 <= k < |table| && jobs[i] == ReadRow(table[k])
    {
      assert ordered[i] in multiset(table);
      var k :| 0 <= k < |table| && table[k] == ordered[i];
      assert jobs[i] == ReadRow(table[k]);
    }
  }

  /** `fetchJobs`: every row, newest first, read as records; a store error is
      rethrown and a missing body reads as no jobs. */
  function FetchJobs(table: Table, reply: Reply): (r: Result<seq<Job>, JobsError>)
    ensures reply.Error? ==> r == Failure(StoreFailure(reply.message))
    ensures reply.NoBody? ==> r == Success([])
    ensures reply.Returned? ==> r.Success? && |r.value| == |table|
    ensures reply.Returned? ==>
      forall i, j :: 0 <= i < j < |r.value| ==> r.value[i].createdAt >= r.value[j].createdAt
    ensures reply.Returned? ==> forall row :: row in table ==> ReadRow(row) in r.value
    ensures reply.Returned? ==>
      forall i :: 0 <= i < |r.value| ==> exists k :: 0 <= k < |table| && r.value[i] == ReadRow(table[k])
    ensures reply.Returned? ==> multiset(r.value) == multiset(ReadAll(table))
  {
    match reply
    case Error(m) => Failure(StoreFailure(m))
    case NoBody => Success([])
    case Returned => Success(ListJobs(table))
  }

  /** The message of the create wrapper's error for a store error. */
  function CreateFailureMessage(storeMessage: string): string {
    "Failed to create job: " + storeMessage
  }

  const NoDataMessage := "No data returned from Supabase"

  /** `createJob`: inserts the record's row under the identifier and
      timestamp the store assigns and returns the inserted row read back. A
      store error fails with the wrapper's message and writes nothing; a
      missing body fails although the row was written. */
  function CreateJob(table: Table, d: Draft, newId: string, now: int, reply: Reply): (s: Step<Job>)
    ensures reply.Error? ==> s == Step(table, Failure(CreateFailed(CreateFailureMessage(reply.message))))
    ensures !reply.Error? ==> s.table == table + [Row(newId, now, ToColumns(d))]
    ensures reply.NoBody? ==> s.result == Failure(CreateFailed(NoDataMessage))
    ensures reply.Returned? ==> s.result.Success?
    ensures reply.Returned? ==>
      && s.result.value.id == newId && s.result.value.createdAt == now
      && (forall f :: f != Status ==> Get(s.result.value.posting, f) == Get(d, f))
      && Truthy(Get(s.result.value.posting, Status))
      && (Truthy(Get(d, Status)) ==> s.result.value.posting == d)
  {
    match reply
    case Error(m) => Step(table, Failure(CreateFailed(CreateFailureMessage(m))))
    case NoBody => Step(table + [Row(newId, now, ToColumns(d))], Failure(CreateFailed(NoDataMessage)))
    case Returned =>
      var row := Row(newId, now, ToColumns(d));
      RecordRoundTrip(d, newId, now);
      Step(table + [row], Success(ReadRow(row)))
  }

  /** The first position holding `id`. */
  function Find(table: Table, id: string): (r: Option<nat>)
    ensures r.None? ==> forall j :: 0 <= j < |table| ==> table[j].id != id
    ensures r.Some? ==>
      r.value < |table| && table[r.value].id == id
      && forall j :: 0 <= j < r.value ==> table[j].id != id
  {
    if table == [] then None
    else if table[0].id == id then Some(0)
    else match Find(table[1..], id)
      case None => None
      case Some(k) => Some(k + 1)
  }

  /** `.eq("id", id).single()`: the position of the one row holding `id`;
      none when no row or more than one row holds it. */
  function Locate(table: Table, id: string): (r: Option<nat>)
    ensures r.Some? ==>
      r.value < |table| && table[r.value].id == id
      && forall j :: 0 <= j < |table| && j != r.value ==> table[j].id != id
    ensures r.None? ==>
      || (forall j :: 0 <= j < |table| ==> table[j].id != id)
      || (exists i, j :: 0 <= i < j < |table| && table[i].id == id && table[j].id == id)
  {
    match Find(table, id)
    case None => None
    case Some(k) =>
      match Find(table[k + 1..], id)
      case None =>
        assert forall j :: k < j < |table| ==> table[j].id == table[k + 1..][j - k - 1].id;
        Some(k)
      case Some(m) =>
        assert table[k + 1 + m].id == id;
        None
  }

  /** With unique identifiers, a present identifier is located at its
      row and an absent one is not located. */
  lemma LocateUnique(table: Table, id: string)
    requires UniqueIds(table)
    ensures Locate(table, id).Some? <==> exists k :: 0 <= k < |table| && table[k].id == id
  {
  }

  /** `updateJob`: the one row holding `id` takes the truthy properties of
      the input; its identifier, creation time and other cells, and every
      other row, are unchanged. A store error is rethrown and writes
      nothing; so does an identifier held by no row or by several. A
      missing body fails on reading it, after the write. The updated row is
      returned with its skills cell as stored. */
  function UpdateJob(table: Table, id: string, d: Draft, reply: Reply): (s: Step<JobOf<Option<SkillList>>>)
    ensures reply.Error? ==> s == Step(table, Failure(StoreFailure(reply.message)))
    ensures !reply.Error? && Locate(table, id).None? ==> s == Step(table, Failure(NotOneRow))
    ensures !reply.Error? && Locate(table, id).Some? ==>
      var k := Locate(table, id).value;
      && |s.table| == |table|
      && (forall j :: 0 <= j < |table| && j != k ==> s.table[j] == table[j])
      && s.table[k].id == id && s.table[k].created_at == table[k].created_at
      && (forall f :: Cell(s.table[k].columns, f) ==
            if Truthy(Get(d, f)) then Get(d, f) else Cell(table[k].columns, f))
      && (reply.NoBody? ==> s.result == Failure(NullResponse))
      && (reply.Returned? ==> s.result == Success(ReadUpdated(s.table[k])))
  {
    match reply
    case Error(m) => Step(table, Failure(StoreFailure(m)))
    case _ =>
      match Locate(table, id)
      case None => Step(table, Failure(NotOneRow))
      case Some(k) =>
        var row := table[k].(columns := ApplyPatch(table[k].columns, BuildPatch(d)));
        PatchWritesTruthyOnly(table[k].columns, d);
        var updated := table[k := row];
        if reply.NoBody? then Step(updated, Failure(NullResponse))
        else Step(updated, Success(ReadUpdated(row)))
  }

  /** The rows not holding `id`, in order. */
  function Remove(table: Table, id: string): (r: Table)
    ensures IsSubsequence(r, table)
    ensures forall x :: x in r <==> x in table && x.id != id
    ensures forall x: Row :: x.id != id ==> multiset(r)[x] == multiset(table)[x]
  {
    if table == [] then []
    else
      var rest := Remove(table[1..], id);
      assert table == [table[0]] + table[1..];
      if table[0].id == id then rest
      else
        var r := [table[0]] + rest;
        assert r[1..] == rest;
        r
  }

  /** `deleteJob`: removes every row holding `id` and keeps the others in
      order; a store error is rethrown and removes nothing. An identifier no
      row holds is not an error. */
  function DeleteJob(table: Table, id: string, reply: Reply): (s: Step<()>)
    ensures reply.Error? ==> s == Step(table, Failure(StoreFailure(reply.message)))
    ensures !reply.Error? ==> s.result.Success?
    ensures !reply.Error? ==> forall x :: x in s.table <==> x in table && x.id != id
    ensures !reply.Error? ==> IsSubsequence(s.table, table)
    ensures !reply.Error? ==> forall x: Row :: x.id != id ==> multiset(s.table)[x] == multiset(table)[x]
  {
    match reply
    case Error(m) => Step(table, Failure(StoreFailure(m)))
    case _ => Step(Remove(table, id), Success(()))
  }

  // ---------------------------------------------------------------------
  // Properties across operations

  /** A created job is among the jobs listed afterwards. */
  lemma CreatedJobIsListed(table: Table, d: Draft, newId: string, now: int)
    ensures var s := CreateJob(table, d, newId, now, Returned);
      FetchJobs(s.table, Returned).Success?
      && s.result.value in FetchJobs(s.table, Returned).value
  {
    var s := CreateJob(table, d, newId, now, Returned);
    assert Row(newId, now, ToColumns(d)) in s.table;
  }

  /** After a delete, no listed job holds the deleted identifier. */
  lemma DeletedJobIsNotListed(table: Table, id: string, reply: Reply)
    requires !reply.Error?
    ensures var after := DeleteJob(table, id, reply).table;
      forall j :: j in FetchJobs(after, Returned).value ==> j.id != id
  {
  }

  /** A create under a fresh identifier keeps identifiers unique. */
  lemma CreateKeepsIdsUnique(table: Table, d: Draft, newId: string, now: int, reply: Reply)
    requires UniqueIds(table)
    requires forall k :: 0 <= k < |table| ==> table[k].id != newId
    ensures UniqueIds(CreateJob(table, d, newId, now, reply).table)
  {
  }

  /** An update keeps identifiers unique. */
  lemma UpdateKeepsIdsUnique(table: Table, id: string, d: Draft, reply: Reply)
    requires UniqueIds(table)
    ensures UniqueIds(UpdateJob(table, id, d, reply).table)
  {
  }

  /** Removing rows keeps identifiers unique. */
  lemma {:induction false} RemoveKeepsIdsUnique(table: Table, id: string)
    requires UniqueIds(table)
    ensures UniqueIds(Remove(table, id))
    decreases |table|
  {
    if table != [] {
      RemoveKeepsIdsUnique(table[1..], id);
      var rest := Remove(table[1..], id);
      if table[0].id != id {
        forall x | x in rest
          ensures x.id != table[0].id
        {
          var k :| 0 <= k < |table[1..]| && table[1..][k] == x;
          assert table[k + 1] == x;
        }
        PrependKeepsIdsUnique(table[0], rest);
      }
    }
  }

  /** A row whose identifier no other row holds can go in front. */
  lemma PrependKeepsIdsUnique(x: Row, rows: Table)
    requires UniqueIds(rows)
    requires forall y :: y in rows ==> y.id != x.id
    ensures UniqueIds([x] + rows)
  {
    assert forall i :: 0 < i <= |rows| ==> ([x] + rows)[i] == rows[i - 1];
  }

  /** A delete keeps identifiers unique. */
  lemma DeleteKeepsIdsUnique(table: Table, id: string, reply: Reply)
    requires UniqueIds(table)
    ensures UniqueIds(DeleteJob(table, id, reply).table)
  {
    RemoveKeepsIdsUnique(table, id);
  }

  /** An update of an identifier no row holds fails and leaves the table
      as it was. */
  lemma UpdateOfMissingIdFails(table: Table, id: string, d: Draft, reply: Reply)
    requires forall k :: 0 <= k < |table| ==> table[k].id != id
    ensures UpdateJob(table, id, d, reply).table == table
    ensures UpdateJob(table, id, d, reply).result.Failure?
  {
  }

  /** Reading a row whose skills cell is an array gives back every cell. */
  lemma ReadRowCells(row: Row)
    requires row.columns.skills.Some?
    ensures forall f :: Get(ReadRow(row).posting, f) == Cell(row.columns, f)
  {
    assert Get(ReadRow(row).posting, Skills) == Cell(row.columns, Skills);
  }

  /** With unique identifiers, an update of a stored row's identifier
      patches that row and no other. */
  lemma UpdateOfStoredRow(table: Table, k: nat, d: Draft, reply: Reply)
    requires UniqueIds(table) && k < |table|
    requires !reply.Error?
    ensures UpdateJob(table, table[k].id, d, reply).table
      == table[k := table[k].(columns := ApplyPatch(table[k].columns, BuildPatch(d)))]
  {
    assert Locate(table, table[k].id) == Some(k);
  }

  /** A draft that agrees with a row's cells on everything but the title
      patches at most the title: it is rewritten when the draft's title is
      non-empty. */
  lemma TitleOnlyPatch(c: Columns, d: Draft)
    requires forall f :: f != Title ==> Get(d, f) == Cell(c, f)
    ensures ApplyPatch(c, BuildPatch(d)) == c.(title := if d.title != "" then d.title else c.title)
  {
    var expected := c.(title := if d.title != "" then d.title else c.title);
    forall f
      ensures Cell(expected, f) == if Truthy(Get(d, f)) then Get(d, f) else Cell(c, f)
    {
      if f != Title {
        assert Get(d, f) == Cell(c, f);
      }
    }
    PatchResult(c, d, expected);
  }

  /** The patch of a stored job with only its title changed rewrites the
      title, when the new title is non-empty, and no other cell. */
  lemma TitlePatch(row: Row, title: string)
    requires row.columns.skills.Some?
    ensures ApplyPatch(row.columns, BuildPatch(ReadRow(row).posting.(title := title)))
      == row.columns.(title := if title != "" then title else row.columns.title)
  {
    var d := WithText(ReadRow(row).posting, Title, title);
    assert d == ReadRow(row).posting.(title := title);
    ReadRowCells(row);
    TitleOnlyPatch(row.columns, d);
  }

  /** Sending back a stored job with only its title changed rewrites the
      title, when the new title is non-empty, and leaves every other cell of
      the table as it was. */
  lemma TitleOnlyEdit(table: Table, k: nat, title: string, reply: Reply)
    requires UniqueIds(table) && k < |table|
    requires table[k].columns.skills.Some?
    requires !reply.Error?
    ensures UpdateJob(table, table[k].id, ReadRow(table[k]).posting.(title := title), reply).table
      == table[k := table[k].(columns := table[k].columns.(
           title := if title != "" then title else table[k].columns.title))]
  {
    UpdateOfStoredRow(table, k, ReadRow(table[k]).posting.(title := title), reply);
    TitlePatch(table[k], title);
  }

  /** Columns whose every cell is the record's where that is truthy, and
      the row's otherwise, are what the update leaves. */
  lemma PatchResult(c: Columns, d: Draft, expected: Columns)
    requires forall f :: Cell(expected, f) == if Truthy(Get(d, f)) then Get(d, f) else Cell(c, f)
    ensures ApplyPatch(c, BuildPatch(d)) == expected
  {
    PatchWritesTruthyOnly(c, d);
    SameCellsSameColumns(ApplyPatch(c, BuildPatch(d)), expected);
  }

  /** A draft with no skills that agrees with a row's cells on everything
      but the title and the skills patches the title, when the draft's is
      non-empty, and writes an empty skills array: an empty array is
      truthy. */
  lemma EmptySkillsTitlePatch(c: Columns, d: Draft)
    requires forall f :: f != Title && f != Skills ==> Get(d, f) == Cell(c, f)
    requires d.skills == []
    ensures ApplyPatch(c, BuildPatch(d))
      == c.(title := if d.title != "" then d.title else c.title, skills := Some([]))
  {
    var expected := c.(title := if d.title != "" then d.title else c.title, skills := Some([]));
    forall f
      ensures Cell(expected, f) == if Truthy(Get(d, f)) then Get(d, f) else Cell(c, f)
    {
      if f != Title && f != Skills {
        assert Get(d, f) == Cell(c, f);
      }
    }
    PatchResult(c, d, expected);
  }

  /** Sending back a stored job whose skills cell is null, with only its
      title changed, rewrites the title, when the new title is non-empty,
      and also turns the null skills cell into an empty array: the read
      gave the job no skills, and that empty list is truthy. */
  lemma NullSkillsTitleEdit(table: Table, k: nat, title: string, reply: Reply)
    requires UniqueIds(table) && k < |table|
    requires table[k].columns.skills.None?
    requires !reply.Error?
    ensures UpdateJob(table, table[k].id, ReadRow(table[k]).posting.(title := title), reply).table
      == table[k := table[k].(columns := table[k].columns.(
           title := if title != "" then title else table[k].columns.title,
           skills := Some([])))]
  {
    var d := WithText(ReadRow(table[k]).posting, Title, title);
    assert d == ReadRow(table[k]).posting.(title := title);
    UpdateOfStoredRow(table, k, d, reply);
    EmptySkillsTitlePatch(table[k].columns, d);
  }
}

=== FILE: types.dfy ===
/** The job record shared by the form and the gateway. A `Posting` holds the
    fields a user edits; a `JobOf` adds the identifier and creation time the
    database assigns. The type of `skills` is a parameter only so that a
    response whose skills column was never normalised can be typed: the form
    and every normalised read use `Draft` and `Job`. */
module Types {
  import opened Wrappers
  import opened Js

  type SkillList = seq<string>

  datatype Posting<S> = Posting(
    title: string,
    description: string,
    department: string,
    qualifications: string,
    experience: string,
    salaryFrom: int,
    salaryTo: int,
    jobType: string,
    schedule: string,
    location: string,
    reportingManager: string,
    skills: S,
    startDate: string,
    endDate: Option<string>,
    urgency: string,
    preferences: Option<string>,
    status: string)

  /** A job without identifier and creation time: the form's state and the
      argument of a create. */
  type Draft = Posting<SkillList>

  /** A stored job. `createdAt` is the database's timestamp, modelled as an
      integer so that its order is the order of time. */
  datatype JobOf<S> = Job(id: string, createdAt: int, posting: Posting<S>)

  type Job = JobOf<SkillList>

  /** The properties of a `Draft`, in the order the record type declares them. */
  datatype Field =
    | Title | Description | Department | Qualifications | Experience
    | SalaryFrom | SalaryTo | JobType | Schedule | Location | ReportingManager
    | Skills | StartDate | EndDate | Urgency | Preferences | Status

  /** The property's name in the camelCase record. */
  function Key(f: Field): string {
    match f
    case Title => "title"
    case Description => "description"
    case Department => "department"
    case Qualifications => "qualifications"
    case Experience => "experience"
    case SalaryFrom => "salaryFrom"
    case SalaryTo => "salaryTo"
    case JobType => "jobType"
    case Schedule => "schedule"
    case Location => "location"
    case ReportingManager => "reportingManager"
    case Skills => "skills"
    case StartDate => "startDate"
    case EndDate => "endDate"
    case Urgency => "urgency"
    case Preferences => "preferences"
    case Status => "status"
  }

  /** `draft[key]`: the JavaScript value stored under a field. */
  function Get(d: Draft, f: Field): Value {
    match f
    case Title => Text(d.title)
    case Description => Text(d.description)
    case Department => Text(d.department)
    case Qualifications => Text(d.qualifications)
    case Experience => Text(d.experience)
    case SalaryFrom => Number(d.salaryFrom)
    case SalaryTo => Number(d.salaryTo)
    case JobType => Text(d.jobType)
    case Schedule => Text(d.schedule)
    case Location => Text(d.location)
    case ReportingManager => Text(d.reportingManager)
    case Skills => Strings(d.skills)
    case StartDate => Text(d.startDate)
    case EndDate => OfOptional(d.endDate)
    case Urgency => Text(d.urgency)
    case Preferences => OfOptional(d.preferences)
    case Status => Text(d.status)
  }

  /** Fields whose value is a string, possibly optional. */
  predicate IsTextField(f: Field) {
    f != SalaryFrom && f != SalaryTo && f != Skills
  }

  /** `{...d, [key]: s}` for a string-valued field. */
  function WithText(d: Draft, f: Field, s: string): (r: Draft)
    requires IsTextField(f)
    ensures Get(r, f) == Text(s)
    ensures forall g :: g != f ==> Get(r, g) == Get(d, g)
  {
    match f
    case Title => d.(title := s)
    case Description => d.(description := s)
    case Department => d.(department := s)
    case Qualifications => d.(qualifications := s)
    case Experience => d.(experience := s)
    case JobType => d.(jobType := s)
    case Schedule => d.(schedule := s)
    case Location => d.(location := s)
    case ReportingManager => d.(reportingManager := s)
    case StartDate => d.(startDate := s)
    case EndDate => d.(endDate := Some(s))
    case Urgency => d.(urgency := s)
    case Preferences => d.(preferences := Some(s))
    case Status => d.(status := s)
  }

  /** `{...d, [key]: n}` for a salary field. */
  function WithNumber(d: Draft, f: Field, n: int): (r: Draft)
    requires f == SalaryFrom || f == SalaryTo
    ensures Get(r, f) == Number(n)
    ensures forall g :: g != f ==> Get(r, g) == Get(d, g)
  {
    if f == SalaryFrom then d.(salaryFrom := n) else d.(salaryTo := n)
  }
}

=== FILE: workflow.dfy ===
/** The jobs page wiring: what reaches the table when the form's create or
    update callback hands its record to the gateway. */
module Workflow {
  import opened Wrappers
  import opened Js
  import opened Types
  import opened JobForm
  import opened SupabaseJobs

  /** Formatting keeps the truthy properties other than status, and
      makes no falsy one truthy. */
  lemma FormatKeepsTruthy(d: Draft)
    ensures forall f :: f != Status ==>
      (Truthy(Get(Format(d), f)) <==> Truthy(Get(d, f)))
    ensures forall f :: f != Status && Truthy(Get(d, f)) ==> Get(Format(d), f) == Get(d, f)
  {
  }

  /** A draft accepted for creation is stored and returned active, with every
      other property as entered and no end date when none was entered. */
  lemma CreatedFromForm(d: Draft, instant: string -> int, table: Table, newId: string, now: int)
    requires Validate(d, instant).Pass?
    ensures var action := Submit(d, None, instant).action;
      && action.CallCreate?
      && var s := CreateJob(table, action.draft, newId, now, Returned);
      && s.result.Success?
      && s.result.value.id == newId && s.result.value.createdAt == now
      && s.result.value.posting.status == "Active"
      && (forall f :: f != EndDate && f != Status ==> Get(s.result.value.posting, f) == Get(d, f))
      && (Truthy(Get(d, EndDate)) ==> Get(s.result.value.posting, EndDate) == Get(d, EndDate))
      && (!Truthy(Get(d, EndDate)) ==> s.table[|table|].columns.end_date == None)
  {
    var action := Submit(d, None, instant).action;
    assert action.draft == Format(d);
  }

  /** Saving an edit rewrites the stored row's cells with the draft's truthy
      properties and "Active" status; a property left empty in the form (an
      end date, preferences, schedule or reporting manager) keeps the value
      already stored, so an edit cannot clear it. */
  lemma UpdatedFromForm(d: Draft, job: Job, instant: string -> int, table: Table, reply: Reply, k: nat)
    requires Validate(d, instant).Pass?
    requires !reply.Error? && Locate(table, job.id) == Some(k)
    ensures var action := Submit(d, Some(job), instant).action;
      && action.CallUpdate?
      && var s := UpdateJob(table, action.job.id, action.job.posting, reply);
      && s.table[k].id == job.id
      && s.table[k].columns.status == "Active"
      && (forall f :: f != Status ==>
            Cell(s.table[k].columns, f) ==
              if Truthy(Get(d, f)) then Get(d, f) else Cell(table[k].columns, f))
      && (forall j :: 0 <= j < |table| && j != k ==> s.table[j] == table[j])
  {
    assert Submit(d, Some(job), instant).action.job == job.(posting := Format(d));
    var s := UpdateJob(table, job.id, Format(d), reply);
    FormattedCells(d, table[k].columns, s.table[k].columns);
  }

  /** Cells patched with a formatted draft hold the draft's truthy
      properties and "Active" status, and keep the rest. */
  lemma FormattedCells(d: Draft, before: Columns, after: Columns)
    requires forall f :: Cell(after, f) ==
                         if Truthy(Get(Format(d), f)) then Get(Format(d), f) else Cell(before, f)
    ensures after.status == "Active"
    ensures forall f :: f != Status ==>
                          Cell(after, f) == if Truthy(Get(d, f)) then Get(d, f) else Cell(before, f)
  {
    FormatKeepsTruthy(d);
    assert Cell(after, Status) == Text("Active");
  }

  /** Clearing the end date of a job being edited leaves the stored end date
      in place. */
  lemma ClearedEndDateIsKept(d: Draft, job: Job, instant: string -> int, table: Table, reply: Reply, k: nat)
    requires Validate(d, instant).Pass? && d.endDate == Some("")
    requires !reply.Error? && Locate(table, job.id) == Some(k)
    ensures var action := Submit(d, Some(job), instant).action;
      UpdateJob(table, job.id, action.job.posting, reply).table[k].columns.end_date
        == table[k].columns.end_date
  {
    UpdatedFromForm(d, job, instant, table, reply, k);
    var s := UpdateJob(table, job.id, Submit(d, Some(job), instant).action.job.posting, reply);
    assert Cell(s.table[k].columns, EndDate) == Cell(table[k].columns, EndDate);
  }

  /** The example posting: a full-time remote backend role without an end
      date, preferences, schedule or reporting manager. */
  function BackendEngineer(): Draft {
    Posting("Backend Engineer", "Build APIs", "Engineering", "BSCS", "3-5 years",
            80000, 120000, "Full-time", "", "Remote", "", ["Go", "SQL"],
            "2025-01-01", None, "High", None, "Active")
  }

  /** The example posting fills in every required property. */
  lemma BackendEngineerIsFilled()
    ensures Filled(BackendEngineer())
  {
    var d := BackendEngineer();
    forall f | f in RequiredFields
      ensures Truthy(Get(d, f))
    {
    }
  }

  /** The example posting passes every submission check, whatever the
      date reading. */
  lemma BackendEngineerIsValid(instant: string -> int)
    ensures Validate(BackendEngineer(), instant).Pass?
  {
    BackendEngineerIsFilled();
  }

  /** Submitting the example posting creates it: the stored job is active,
      carries the assigned identifier and timestamp, and is listed. */
  lemma BackendEngineerIsCreated(table: Table, instant: string -> int, newId: string, now: int)
    ensures var action := Submit(BackendEngineer(), None, instant).action;
      && action.CallCreate?
      && var s := CreateJob(table, action.draft, newId, now, Returned);
      && s.result.Success?
      && s.result.value.id == newId && s.result.value.createdAt == now
      && s.result.value.posting.status == "Active"
      && s.result.value in FetchJobs(s.table, Returned).value
  {
    var d := BackendEngineer();
    BackendEngineerIsValid(instant);
    CreatedFromForm(d, instant, table, newId, now);
    CreatedJobIsListed(table, Format(d), newId, now);
  }

  /** The form never sends back a job read from a row whose skills cell is
      null with only its title changed: the read gave it no skills, and the
      form refuses a posting without skills before calling the update. */
  lemma NullSkillsTitleEditIsBlocked(row: Row, title: string, instant: string -> int)
    requires row.columns.skills.None?
    ensures var job := ReadRow(row);
      Submit(Load(Some(job)).(title := title), Some(job), instant).action
        == Alert(Validate(Load(Some(job)).(title := title), instant).error)
  {
    var job := ReadRow(row);
    var d := Load(Some(job)).(title := title);
    assert Get(Load(Some(job)), Skills) == Get(job.posting, Skills);
    EmptySkillsAreRejected(d, instant);
  }
}

=== FILE: wrappers.dfy ===
/** Wrappers used across the model: `Option` for values a
    JavaScript record may leave `undefined`, `Result` for operations that
    either produce a value or throw, `Outcome` for checks that pass or fail. */
module Wrappers {

  datatype Option<+T> = None | Some(value: T) {

    /** The wrapped value, or `default` when absent. */
    function GetOr(default: T): T {
      match this
      case Some(v) => v
      case None => default
    }
  }

  datatype Result<+R, +E> = Success(value: R) | Failure(error: E)

  datatype Outcome<+E> = Pass | Fail(error: E)
}
